=== FILE: README.md ===
# BigNumber in Dafny

A model of `BigNumber` (src/BigNumber.h, src/BigNumber.cpp). This is a
fixed-capacity, non-negative decimal number held as 21 base-1000 segments,
least significant first. One segment exists per entry of the unit-name
tables: "", thousand, million, … novemdecillion. The model covers:

- construction from nothing (zero) and from an integer;
- `MAX_BIG_NUMBER`;
- the two normalisation routines and `topIndex`;
- `+`/`+=`, `-`/`-=` and `*`/`*=` by a scalar;
- the six comparisons and `getValue`;
- the two renderers `toStringE` and `toString`.

The proofs read the model back through three functions:

- `Positional.Value`: the number that a segment sequence denotes, Σ s[i]·1000^i;
- `BigNumbers.RealValue`: the same sum over the real-valued segments that
  `normaliseDecimals` works on;
- `DecimalText.DigitsValue`: the number that a string of decimal digits spells.

## How the model is organised

- `Positional.dfy` defines place values: `Value`, the segment-wise `Plus`,
  `Minus` and `Times`, and the facts about them. The key fact is that
  canonical segments are unique for their value (`ValueInjective`).
- `BigNumber.dfy` (module `BigNumbers`) holds the name tables,
  `SegmentCount`, the datatype, `normalise`, `normaliseDecimals`,
  `topIndex`, the constructors, `MAX_BIG_NUMBER` and `getValue`.
- A `BigNumber` holds `Segments`: 21 segments, none negative, and all but
  the top one below 1000. Every operation leaves its result in this state.
  The top segment is never reduced, so it may exceed 999.
- `Comparison.dfy` holds the six comparisons.
- `Arithmetic.dfy` holds the three operator pairs. With value semantics,
  `a + b` (which applies `+=` to a copy) and `a += b` compute the same
  segments, and so do `a * k` and `a *= k`; each of these pairs is one
  function (`Add`, `Scale`). `-` and `-=` differ on underflow. `-=`
  returns before touching the receiver, so the statement `a -= b` leaves
  `a` as it was (`SubAssign`). The expression `a - b` yields zero (`Sub`).
- `Decimal.dfy` (module `DecimalText`) holds the digit strings that
  `"%1.0lf"` and `"%03.0lf"` produce for whole values, plus reading digits
  back as a number.
- `Format.dfy` holds `toStringE` and `toString`, built as strings, with
  the default arguments of src/BigNumber.h:41 and :43 (`rightAlign` false,
  `longVersion` true). The proofs show that `toStringE`, read with its
  commas removed, is the exact decimal value.
- `Scenarios.dfy` holds the sample values of the demonstration driver
  src/main.cpp, with their printed forms where the driver prints them:
  - big = 350256123;
  - copy = big + (big + big) and copy × 5;
  - 1000 × 5000000;
  - `MAX_BIG_NUMBER`, `MAX_BIG_NUMBER` × 20, `MAX_BIG_NUMBER` − 1 and
    `MAX_BIG_NUMBER` − `MAX_BIG_NUMBER`.

  1000 × 0 and 1000 × 1 follow from `Arithmetic.ScaleByZero` and
  `Arithmetic.ScaleByOne`. The extra samples 999 and 1 + 999 are also there.
- `Findings.dfy` holds four places where the source does not do what it
  evidently means. Each has the behaviour as written, an input that shows
  it, and a corrected definition.

Choices made where the source has undefined behaviour or does not do what
its own comments say:

- `-=` on underflow returns a reference to a temporary `BigNumber()`
  (src/BigNumber.cpp:144-145). The model gives zero for `a - b`, and the
  receiver of `a -= b` is not changed (`Arithmetic.SubAssign`).
- `==` initialises its local top index from itself
  (src/BigNumber.cpp:210). `Comparison.Equal` uses the receiver's
  `topIndex()`. The code as written is `Findings.EqualAsWritten`.
- `getValue` admits `index == SEGMENT_COUNT` (src/BigNumber.cpp:229).
  `BigNumbers.GetValue` reads only indices below 21. The code as written
  is `Findings.GetValueAsWritten`.
- `>` is modelled exactly as written (src/BigNumber.cpp:179-191). For
  normalised numbers it answers "some segment of a is larger than the
  same segment of b", which is not numeric order. `-` is modelled on top
  of it as written. The corrected pair `GreaterFixed`/`SubFixed` is in
  `Findings`.
- The borrow in `-=` is guarded by `index + 1 < topIndex()`. That call is
  made on the segments as they are being rewritten, and the model
  evaluates it there too. With `>` as
  written the guard never matters, because `-` only runs when no segment
  of b is larger (`Arithmetic.SubIsSegmentwise`).
- The top segment is never carried or truncated: `normalise` stops one
  below it, although its comment (src/BigNumber.h:47-48) says it reduces
  segment values below the maximum. So a sum that overflows the top place
  keeps the whole excess in segment 20, rather than dropping it. The model
  follows the code, and `Arithmetic.Add` is therefore exact.

## Model

| member | source | states |
|---|---|---|
| BigNumbers.CarryAt | src/BigNumber.cpp:61-65 | one carry step keeps the value, leaves every other segment alone, brings a non-negative segment below 1000 and never lowers the next one; a segment already below 1000 is untouched |
| BigNumbers.NormaliseFrom | src/BigNumber.cpp:59-66 | the loop from index i keeps the value and the segments below i; on non-negative input it leaves every segment from i up to the top non-negative, every one below the top under 1000, and the top at least as large; segments already in range are unchanged |
| BigNumbers.Normalise | src/BigNumber.cpp:57-67 | normalise yields the normalised state with the same value, never lowers the top segment, and is the identity on a normalised number |
| BigNumbers.Round | src/BigNumber.cpp:72 | round() lands within one half of its argument, and a tie goes away from zero |
| BigNumbers.NormaliseDecimalsFrom | src/BigNumber.cpp:73-81 | the fraction-moving loop from index i keeps the length and the value, leaves the segments below i - 1 alone, and leaves the top segment whole |
| BigNumbers.NormaliseDecimals | src/BigNumber.cpp:69-82 | normaliseDecimals changes the value only by the rounding of segment 0, and leaves the top segment whole |
| BigNumbers.RealValueUpdate | src/BigNumber.cpp:78-79 | changing one segment changes the value by the difference at that segment's place weight |
| BigNumbers.FractionLeftBelowTop | src/BigNumber.cpp:73-81 | on segments 0, 0, 0.0005 the loop moves 0.5 into segment 1 after segment 1 was floored, ending with 0, 0.5, 0 |
| BigNumbers.NormaliseDecimalsIntegral | src/BigNumber.cpp:69-82 | normaliseDecimals (round segment 0, move fractional parts down) changes nothing when every segment is whole |
| BigNumbers.TopFrom | src/BigNumber.cpp:86-93 | the downward scan returns an index at most its start, all segments above it up to the start are zero, and a positive answer names a non-zero segment |
| BigNumbers.TopIndexOf | src/BigNumber.cpp:84-94 | topIndex on raw segments is an index of the sequence, every segment above it is zero, and a positive answer names a non-zero segment |
| BigNumbers.TopIndex | src/BigNumber.cpp:84-94 | topIndex is the greatest index of a non-zero segment, and 0 when all segments are zero |
| BigNumbers.TopIndexZero | src/BigNumber.cpp:84-94 | the top index is 0 exactly when the value is below 1000; zero has top index 0 |
| BigNumbers.Max | src/BigNumber.cpp:96-104 | MAX_BIG_NUMBER has every segment 999 and the value 1000^21 - 1 |
| BigNumbers.MaxIsLargest | src/BigNumber.cpp:96-104 | every number whose top segment is below 1000 is at most MAX_BIG_NUMBER |
| BigNumbers.Zero | src/BigNumber.cpp:106-109 | the default constructor sets every segment to zero, value 0 |
| BigNumbers.Decompose | src/BigNumber.cpp:115-119 | the constructor loop over n segments yields n segments in [0, 1000) whose value is v mod 1000^n |
| BigNumbers.DecomposeSegment | src/BigNumber.cpp:115-119 | segment i of the constructor loop is digit i of v, (v / 1000^i) mod 1000 |
| BigNumbers.FromInt | src/BigNumber.cpp:112-120 | BigNumber(v) has in-range segments and denotes v mod 1000^21, which is v itself below 1000^21 |
| BigNumbers.FromIntSegments | src/BigNumber.cpp:112-120 | getValue(i) of BigNumber(v) is (v / 1000^i) mod 1000 for i below 21, and 0 above |
| BigNumbers.FromIntBelow | src/BigNumber.cpp:112-120 | a value below 1000^k with k at most 21 is kept exactly |
| BigNumbers.FromIntOfValue | src/BigNumber.cpp:112-120 | constructing from the value of a number with in-range segments gives that number back |
| BigNumbers.GetValue | src/BigNumber.cpp:227-232 | getValue returns the segment at an index below 21 and 0 for any other index; below the top that is digit index of the number's value in base 1000, and at index 20 it is the value divided by 1000^20 |
| Comparison.ScanGreater | src/BigNumber.cpp:185-189 | the loop of operator> from i down answers true exactly when some segment at or below i is larger |
| Comparison.Greater | src/BigNumber.cpp:179-191 | operator> as written is true exactly when some segment of a exceeds the same segment of b |
| Comparison.Less | src/BigNumber.cpp:198-201 | operator< is true exactly when some segment of b exceeds the same segment of a |
| Comparison.GreaterEq | src/BigNumber.cpp:193-196 | operator>= is true exactly when no segment of b exceeds a's |
| Comparison.LessEq | src/BigNumber.cpp:203-206 | operator<= is true exactly when no segment of a exceeds b's |
| Comparison.ScanEqual | src/BigNumber.cpp:214-218 | the loop of operator== from i to top answers true exactly when those segments agree |
| Comparison.Equal | src/BigNumber.cpp:208-220 | operator== with the receiver's top index is true exactly when the numbers are equal |
| Comparison.NotEqual | src/BigNumber.cpp:222-225 | operator!= is true exactly when the numbers differ |
| Comparison.GreaterIrreflexive | src/BigNumber.cpp:179-191 | no number is greater than itself |
| Comparison.ComparisonEquality | src/BigNumber.cpp:179-225 | equal numbers compare neither way under > and <, and >= together with <= holds exactly for equal numbers |
| Arithmetic.Add | src/BigNumber.cpp:122-135 | the sum's value is the sum of the values, and its top segment is at least the sum of the two top segments |
| Arithmetic.AddCommutes | src/BigNumber.cpp:127-135 | a + b == b + a |
| Arithmetic.AddAssociates | src/BigNumber.cpp:127-135 | (a + b) + c == a + (b + c) |
| Arithmetic.AddZero | src/BigNumber.cpp:127-135 | a + BigNumber() == a |
| Arithmetic.SameValueSameNumber | src/BigNumber.h:47-48 | two normalised numbers with the same value have the same segments |
| Arithmetic.BorrowPass | src/BigNumber.cpp:146-157 | the borrowing loop from index i keeps the length and the segments below i; with b's segments in range and no receiver segment below -1 at i or below 0 above it, every segment from i on ends non-negative |
| Arithmetic.BorrowPassNoBorrow | src/BigNumber.cpp:146-157 | when no segment of b exceeds a's, the borrowing loop is the segment-wise difference |
| Arithmetic.Sub | src/BigNumber.cpp:137-160 | a - b is zero when a < b by the comparison; otherwise no segment of b exceeds a's and the value is the difference of the values |
| Arithmetic.SubIsSegmentwise | src/BigNumber.cpp:146-158 | when a < b fails, a - b is exactly the segment-wise difference |
| Arithmetic.SubAssign | src/BigNumber.cpp:142-160 | the statement a -= b leaves a unchanged when a < b; otherwise it gives the same number as a - b, the segment-wise difference, worth the difference of the values |
| Arithmetic.SubSelf | src/BigNumber.cpp:142-160 | a - a is zero |
| Arithmetic.Scale | src/BigNumber.cpp:162-176 | a * k for a whole k has value k times the value of a |
| Arithmetic.ScaledSegmentsWhole | src/BigNumber.cpp:169-174 | after multiplying by a whole scalar, normaliseDecimals and the store back into segments change nothing |
| Arithmetic.TimesNonNegative | src/BigNumber.cpp:169-172 | multiplying non-negative segments by a non-negative scalar keeps them non-negative |
| Arithmetic.ScaleByZero | src/BigNumber.cpp:162-176 | a * 0 is zero |
| Arithmetic.ScaleByOne | src/BigNumber.cpp:162-176 | a * 1 is a |
| Arithmetic.ScaleDistributes | src/BigNumber.cpp:162-176 | (a + b) * k == a * k + b * k |
| DecimalText.Decimal | src/BigNumber.cpp:243 | "%1.0lf" of a whole n is a non-empty digit string spelling n, with no leading zero unless n is 0, and 1, at most 2, at most 3 or at least 3 digits by magnitude |
| DecimalText.DecimalUnique | src/BigNumber.cpp:243 | a digit string that reads back as n and has no leading zero (unless it is one digit) is "%1.0lf" of n |
| DecimalText.Pad3 | src/BigNumber.cpp:243 | "%03.0lf" of a whole n is a digit string spelling n, exactly three characters long for n below 1000 |
| DecimalText.LeftPad | src/BigNumber.cpp:250-252 | "%Ns" ends with the text, pads in front with the fill character, and is as long as the width or the text |
| Format.PieceDigits | src/BigNumber.cpp:242-245 | each piece's digits spell its segment, three digits below the top; the top piece has no leading zero unless its segment is 0 |
| Format.Piece | src/BigNumber.cpp:242-245 | one iteration writes its segment's digits, plus exactly one comma when the index is not 0 and none at index 0 |
| Format.Emit | src/BigNumber.cpp:240-247 | the loop from index i down to 0 writes exactly i commas |
| Format.EmitStep | src/BigNumber.cpp:240-247 | an iteration above index 0 writes the piece's digits and a comma in front of the rest of the loop |
| Format.EmitLast | src/BigNumber.cpp:240-247 | the iteration at index 0 writes the digits of segment 0 and no comma |
| Format.EmitLowerDigits | src/BigNumber.cpp:240-247 | below the top, the loop writes three digits per segment, and they spell the value of segments 0..i |
| Format.EmitDigits | src/BigNumber.cpp:240-247 | with the commas removed, the whole loop spells the value of segments 0..top |
| Format.Grouped | src/BigNumber.cpp:239-247 | the grouped text has one comma per segment below the top index |
| Format.ToStringE | src/BigNumber.cpp:234-256 | toStringE has topIndex commas; without alignment it is the grouped text; with alignment it is exactly 87 characters, or the grouped text's length when that is longer, ends with the grouped text, and has only spaces in front |
| Format.ToStringEDenotesValue | src/BigNumber.cpp:234-256 | toStringE with its commas removed reads back as the number's value and is exactly "%1.0lf" of that value, so it has no leading zero |
| Format.ToStringEZero | src/BigNumber.cpp:234-256 | zero renders as "0" |
| Format.WithUnit | src/BigNumber.cpp:264 | "%1.0lf %s" is the digits of n, one space, then the name |
| Format.Small | src/BigNumber.cpp:265-268 | below a million, toString writes the same text as toStringE |
| Format.ToString | src/BigNumber.cpp:258-270 | toString is the grouped text below a million; from a million up it is the top segment's digits, with no leading zero, a space and the top index's entry in the long or the short name table |
| Scenarios.SamplesConstructed | src/BigNumber.cpp:112-120 | BigNumber(1), (999), (1000) and (350256123) denote exactly those values |
| Scenarios.BigSegments | src/BigNumber.cpp:84-94 | 350256123 has segments 123, 256, 350 and top index 2 |
| Scenarios.BigUnitForm | src/BigNumber.cpp:258-264 | 350256123 prints as "350 M" and "350 million" |
| Scenarios.BigGrouped | src/BigNumber.cpp:234-247 | 350256123 prints as "350,256,123" |
| Scenarios.BigPrinted | src/BigNumber.cpp:234-270 | a number worth 350256123 prints as "350 M", "350 million" and "350,256,123" |
| Scenarios.DriverBig | src/main.cpp:7-12 | BigNumber(350256123) keeps its value and prints as "350 M", "350 million" and "350,256,123" |
| Scenarios.DriverCopy | src/main.cpp:8-21 | copy = big + (big + big) is worth 1050768369 and prints as "1 B", "1 billion" and "1,050,768,369"; copy * 5 is worth 5253841845 and prints as "5 B", "5 billion" and "5,253,841,845" |
| Scenarios.CopyPrinted | src/BigNumber.cpp:234-270 | a number worth 1050768369 prints as "1 B", "1 billion" and "1,050,768,369" |
| Scenarios.CopyTimesFivePrinted | src/BigNumber.cpp:234-270 | a number worth 5253841845 prints as "5 B", "5 billion" and "5,253,841,845" |
| Scenarios.BillionsForm | src/BigNumber.cpp:258-264 | with top index 3 and a one-digit top segment d, toString is "d B" and "d billion" |
| Scenarios.GroupedFour | src/BigNumber.cpp:240-247 | with top index 3 the grouped text is top digits, then the padded segments 2, 1 and 0, each after a comma |
| Scenarios.GroupedThree | src/BigNumber.cpp:240-247 | with top index 2 the grouped text is top digits, comma, padded segment 1, comma, padded segment 0 |
| Scenarios.Pad3Exact | src/BigNumber.cpp:243 | a three-digit value is printed without padding |
| Scenarios.DecimalLiterals | src/BigNumber.cpp:243 | the digits of 123, 256, 350, 999 and 5 |
| Scenarios.UnitForm | src/BigNumber.cpp:261-264 | from a million up, toString is the top segment's digits, a space and the unit name |
| Scenarios.MaxRendered | src/BigNumber.cpp:258-264 | MAX_BIG_NUMBER has top index 20 and prints as "999 novemdecillion" and "999 ND" |
| Scenarios.AllNinesRendered | src/BigNumber.cpp:258-264 | any number with every segment 999 prints as "999 novemdecillion" and "999 ND" |
| Scenarios.TopNames | src/BigNumber.cpp:8-53 | the names of the top place are "novemdecillion" and "ND" |
| Scenarios.MaxMinusMax | src/BigNumber.cpp:142-160 | MAX_BIG_NUMBER - MAX_BIG_NUMBER is zero and prints as "0" |
| Scenarios.MaxTimesTwenty | src/main.cpp:23 | MAX_BIG_NUMBER * 20 is worth 20 times MAX_BIG_NUMBER, its segments are exactly 980, 999, ..., 999, 19999, and prints as "19999 ND" and "19999 novemdecillion" |
| Scenarios.TwentyMaxSegments | src/BigNumber.cpp:167-176 | a normalised number worth 20 * (1000^21 - 1) has exactly the segments 980, nineteen 999s and a top segment of 19999 |
| Scenarios.MaxMinusOne | src/main.cpp:25 | MAX_BIG_NUMBER - 1 is worth one less, and its segments are exactly 998 in segment 0 and 999 in every other segment |
| Scenarios.NothingAboveMax | src/BigNumber.cpp:198-201 | MAX_BIG_NUMBER < a fails for every number with in-range segments, so MAX_BIG_NUMBER - a never underflows |
| Scenarios.ThousandSegments | src/BigNumber.cpp:115-119 | 1000 has segments 0, 1 and zeros above |
| Scenarios.NinesSegments | src/BigNumber.cpp:115-119 | 999 has segment 0 equal to 999 and zeros above |
| Scenarios.OnePlusNineNineNine | src/BigNumber.cpp:127-135 | 1 + 999 is 1000, with segment 0 zero and segment 1 one |
| Scenarios.ThousandTimesFiveMillion | src/BigNumber.cpp:167-176 | 1000 * 5000000 is five billion, has 5 in segment 3, and prints as "5 B" |
| Scenarios.FiveBillionForm | src/BigNumber.cpp:261-264 | five billion prints as "5 B" in the short form |
| Scenarios.FiveBillionSegments | src/BigNumber.cpp:84-94 | five billion has 5 in segment 3 and top index 3 |
| Findings.GreaterIsNotAnOrder | src/BigNumber.cpp:185-189 | 999 > 1000 and 1000 > 999 both hold, and 1000 - 999 is zero |
| Findings.SubAsWrittenNotInverse | src/BigNumber.cpp:142-145 | (1 + 999) - 999 is zero, not 1 |
| Findings.LexGreaterValue | src/BigNumber.cpp:185-189 | scanning down from i, the highest differing segment decides exactly when the prefix ending at i is larger |
| Findings.TopDominates | src/BigNumber.cpp:181-183 | a number with a higher top index is larger |
| Findings.GreaterFixed | src/BigNumber.cpp:179-191 | the corrected operator> is true exactly when a's value exceeds b's |
| Findings.EqualAsWritten | src/BigNumber.cpp:208-220 | operator== as written with local top index t is true exactly when t is b's top index and segments 0..t agree |
| Findings.EqualAsWrittenNotReflexive | src/BigNumber.cpp:210-212 | a number compares unequal to itself whenever the local holds anything but its top index |
| Findings.EqualAsIntended | src/BigNumber.cpp:208-220 | with the receiver's top index the operator as written is Equal, which holds exactly for equal values |
| Findings.GetValueGuardOffByOne | src/BigNumber.cpp:229 | the guard as written reads past the end exactly at index 21 and agrees with GetValue everywhere else |
| Findings.BorrowGuardDropsBorrow | src/BigNumber.cpp:149-155 | with 1000 > 999 decided correctly, the borrowing loop as written turns 1000 - 999 into segments worth 1001 |
| Findings.DroppedBorrow | src/BigNumber.cpp:146-157 | on the segments of 1000 and 999 the loop as written yields segments worth 1001 |
| Findings.PassOnThousand | src/BigNumber.cpp:149-155 | on those segments the loop only lifts index 0 to 1 and drops the borrow |
| Findings.BorrowPassFixed | src/BigNumber.cpp:146-157 | the corrected borrowing loop keeps the length and the segments below i; with b's segments from i on in range, the receiver's segments from i on below 1000 under the top, none below -1 at i and none negative above it, every segment from i up to, but not including, the top ends in range |
| Findings.NoTopUnderflow | src/BigNumber.cpp:146-157 | when the corrected loop reaches the top index with nothing owed overall, the top segment covers b's top segment |
| Findings.BorrowPassFixedValue | src/BigNumber.cpp:146-157 | the corrected loop, borrowing whenever a next segment exists, computes a - b exactly and leaves canonical segments |
| Findings.SubFixed | src/BigNumber.cpp:142-160 | the corrected operator-= is zero when b's value is larger, and otherwise the difference of the values |
| Findings.SubFixedInverse | src/BigNumber.cpp:137-160 | with the corrections, (a + b) - b == a |

## Left out

- Floating point. Segments are `double` in the source and whole numbers in
  the model. IEEE rounding and the loss of exactness above 2^53 are not
  modelled.
- Arithmetic.Scale: takes a whole, non-negative scalar only. Fractional
  scalars such as 0.5 need the fractional carry of `normaliseDecimals` on
  non-whole segments, and that is not characterised.
- BigNumbers.NormaliseDecimals: states the value (kept up to the rounding
  of segment 0) and that the top segment ends whole, but not which other
  segments end whole. Segments below the top may end fractional, because
  a fraction moved down lands in a segment the loop has already floored
  (FractionLeftBelowTop). The `(int)` casts that `normalise` then applies
  to such segments are not modelled. On whole segments it is proved to be
  the identity (NormaliseDecimalsIntegral).
- BigNumbers.FromInt: takes a non-negative value only. Negative input is
  not modelled: C's truncating `%` would give negative segments, which no
  other operation expects.
- Machine widths. The `(int)` casts in `normalise` overflow for segments
  of 2^31 and more. The `uint32_t` indices and the `int64_t` range of the
  constructor argument are not modelled either; the model uses unbounded
  integers.
- The 100-byte `sprintf` buffers and the computed format string of
  `toStringE`. The text is built directly, so a rendering longer than the
  buffer (a very large top segment) is not shown to overflow.
- The implicit copy constructor and assignment. Values are immutable here.
- The demonstration driver src/main.cpp is not modelled as a program:
  `printf` and the `PRINT_BIG` macro are left out. Its sample values and
  the strings the three renderers return for them appear in `Scenarios` as
  facts. The two products by 0.5 (src/main.cpp:19-20) are not among them,
  because fractional scalars are not modelled (see Arithmetic.Scale).
- Total-order laws (transitivity, antisymmetry, totality) for the
  comparisons as written. `>` as written is not an order (see Findings).
  The corrected comparison is numeric order (Findings.GreaterFixed), so
  its laws follow from those of integers and are not restated.

## Findings

| source | as written | input that shows it | evidently intended | confidence | as-written member | corrected member |
|---|---|---|---|---|---|---|
| src/BigNumber.cpp:185-189 | after the top-index test, `>` answers true as soon as any segment at or below the top index is larger | 1000 and 999: each is `>` the other, so 1000 - 999 gives 0 | the highest differing segment decides | not executed | Findings.GreaterIsNotAnOrder | Findings.GreaterFixed |
| src/BigNumber.cpp:152 | the borrow is taken only if index + 1 < topIndex() of the segments being rewritten | 1000 - 999 with a correct comparison: at index 0 the top index is 1, so the borrow is dropped and the result is worth 1001 | borrow whenever a next segment exists | not executed | Findings.BorrowGuardDropsBorrow | Findings.SubFixed |
| src/BigNumber.cpp:210 | the local top index is initialised from itself, so its value is indeterminate | any number compared with itself while the local holds a value other than its top index compares unequal | the receiver's topIndex() | not executed | Findings.EqualAsWrittenNotReflexive | Comparison.Equal |
| src/BigNumber.cpp:229 | the guard is index <= SEGMENT_COUNT | getValue(21) reads one past the 21 segments | index < SEGMENT_COUNT | not executed | Findings.GetValueGuardOffByOne | BigNumbers.GetValue |

The rest of the model uses `Comparison.Equal` and `BigNumbers.GetValue`
in their corrected forms. `>` and `-` are kept as written, because they
are the behaviour of the operators. Their corrected forms
`Findings.GreaterFixed` and `Findings.SubFixed` stand beside them, and
the intended laws are proved about the corrected forms.

=== FILE: Arithmetic.dfy ===
/** The arithmetic operators of BigNumber: `+`/`+=`, `-`/`-=` and `*`/`*=`
    by a whole, non-negative scalar. With value semantics, `a + b` (which
    applies `+=` to a copy of a) and `a += b` compute the same segments, so
    each pair is one function here. */
module Arithmetic {
  import opened Positional
  import opened BigNumbers
  import opened Comparison

  // ---------------------------------------------------------------- addition

  /** operator+= / operator+: element-wise sum, then normalise. The top
      segment is never reduced, so the value is the exact sum. */
  function Add(a: BigNumber, b: BigNumber): (r: BigNumber)
    ensures Val(r) == Val(a) + Val(b)
    ensures r.segments[SegmentCount - 1] >= a.segments[SegmentCount - 1] + b.segments[SegmentCount - 1]
  {
    var sum := Plus(a.segments, b.segments);
    ValuePlus(a.segments, b.segments);
    BigNumber(Normalise(sum))
  }

  lemma AddCommutes(a: BigNumber, b: BigNumber)
    ensures Add(a, b) == Add(b, a)
  {
    assert Plus(a.segments, b.segments) == Plus(b.segments, a.segments);
  }

  /** Two normalised numbers with the same value are the same number. */
  lemma SameValueSameNumber(a: BigNumber, b: BigNumber)
    requires Val(a) == Val(b)
    ensures a == b
  {
    ValueInjective(a.segments, b.segments);
  }

  lemma AddAssociates(a: BigNumber, b: BigNumber, c: BigNumber)
    ensures Add(Add(a, b), c) == Add(a, Add(b, c))
  {
    var left, right := Add(Add(a, b), c), Add(a, Add(b, c));
    assert Val(left) == Val(a) + Val(b) + Val(c) == Val(right);
    SameValueSameNumber(left, right);
  }

  lemma AddZero(a: BigNumber)
    ensures Add(a, Zero()) == a
  {
    var r := Add(a, Zero());
    assert Val(r) == Val(a);
    SameValueSameNumber(r, a);
  }

  // ---------------------------------------------------------------- subtraction

  /** The loop of operator-= from index i: subtract segment-wise; a segment
      that goes negative takes Base and, only if index + 1 is below the
      CURRENT top index, decrements the next segment. */
  function BorrowPass(s: seq<int>, o: seq<int>, i: nat): (r: seq<int>)
    requires |s| == |o| && i <= |s|
    decreases |s| - i
    ensures |r| == |s|
    ensures forall j :: 0 <= j < i ==> r[j] == s[j]
    ensures (forall j :: i <= j < |s| ==> 0 <= o[j] < Base) &&
            (i < |s| ==> -1 <= s[i]) && (forall j :: i < j < |s| ==> 0 <= s[j]) ==>
              forall j :: i <= j < |s| ==> 0 <= r[j]
  {
    if i == |s| then s
    else
      var d := s[i] - o[i];
      if d < 0 then
        var lifted := s[i := d + Base];
        var borrowed := if i + 1 < TopIndexOf(lifted) then lifted[i + 1 := lifted[i + 1] - 1] else lifted;
        BorrowPass(borrowed, o, i + 1)
      else
        BorrowPass(s[i := d], o, i + 1)
  }

  /** When no segment of o exceeds the matching segment of s, the borrow
      branch never fires and the loop is the segment-wise difference. */
  lemma {:induction false} BorrowPassNoBorrow(s: seq<int>, o: seq<int>, i: nat)
    requires |s| == |o| && i <= |s|
    requires forall j :: i <= j < |s| ==> o[j] <= s[j]
    decreases |s| - i
    ensures forall j :: 0 <= j < i ==> BorrowPass(s, o, i)[j] == s[j]
    ensures forall j :: i <= j < |s| ==> BorrowPass(s, o, i)[j] == s[j] - o[j]
  {
    if i < |s| {
      var t := s[i := s[i] - o[i]];
      BorrowPassNoBorrow(t, o, i + 1);
    }
  }

  /** operator-= / operator-: zero when a < b by the comparison rule,
      otherwise the borrowing loop followed by normalise. */
  function Sub(a: BigNumber, b: BigNumber): (r: BigNumber)
    ensures Less(a, b) ==> r == Zero()
    ensures !Less(a, b) ==> forall j :: 0 <= j < SegmentCount ==> b.segments[j] <= a.segments[j]
    ensures !Less(a, b) ==> Val(r) == Val(a) - Val(b)
  {
    if Less(a, b) then Zero()
    else
      var diff := BorrowPass(a.segments, b.segments, 0);
      BorrowPassNoBorrow(a.segments, b.segments, 0);
      assert diff == Minus(a.segments, b.segments);
      ValueMinus(a.segments, b.segments);
      BigNumber(Normalise(diff))
  }

  /** `a -= b` as a statement: on underflow operator-= returns before
      touching the segments, so the receiver keeps its value; otherwise the
      receiver becomes a - b. */
  function SubAssign(a: BigNumber, b: BigNumber): (r: BigNumber)
    ensures Less(a, b) ==> r == a
    ensures !Less(a, b) ==> r == Sub(a, b)
    ensures !Less(a, b) ==> Val(r) == Val(a) - Val(b)
    ensures !Less(a, b) ==> r.segments == Minus(a.segments, b.segments)
  {
    if Less(a, b) then a
    else
      SubIsSegmentwise(a, b);
      Sub(a, b)
  }

  /** Without an underflow the result is the plain segment-wise difference:
      each lower segment stays in [0, Base), so normalise has nothing to do. */
  lemma SubIsSegmentwise(a: BigNumber, b: BigNumber)
    requires !Less(a, b)
    ensures Sub(a, b).segments == Minus(a.segments, b.segments)
  {
    BorrowPassNoBorrow(a.segments, b.segments, 0);
    assert BorrowPass(a.segments, b.segments, 0) == Minus(a.segments, b.segments);
  }

  /** a - a is zero. */
  lemma SubSelf(a: BigNumber)
    ensures Sub(a, a) == Zero()
  {
    GreaterIrreflexive(a);
    SameValueSameNumber(Sub(a, a), Zero());
  }

  // ---------------------------------------------------------------- scaling

  /** operator*= / operator*: every segment times k, normaliseDecimals, then
      normalise. For a whole scalar the segments stay whole, so the
      decimal redistribution changes nothing. */
  function Scale(a: BigNumber, k: nat): (r: BigNumber)
    ensures Val(r) == k * Val(a)
  {
    var scaled := Times(a.segments, k);
    var whole := Floors(NormaliseDecimals(AsReals(scaled)));
    ScaledSegmentsWhole(scaled);
    TimesNonNegative(a.segments, k);
    ValueTimes(a.segments, k);
    BigNumber(Normalise(whole))
  }

  /** After a multiplication by a whole scalar, normaliseDecimals and the
      store back into segments change nothing. */
  lemma ScaledSegmentsWhole(s: seq<int>)
    requires |s| >= 1
    ensures Floors(NormaliseDecimals(AsReals(s))) == s
  {
    NormaliseDecimalsIntegral(AsReals(s));
    FloorsOfReals(s);
  }

  lemma TimesNonNegative(s: seq<int>, k: nat)
    requires NonNegative(s)
    ensures NonNegative(Times(s, k))
  {
    forall i | 0 <= i < |s|
      ensures Times(s, k)[i] >= 0
    {
      assert s[i] >= 0;
    }
  }

  lemma ScaleByZero(a: BigNumber)
    ensures Scale(a, 0) == Zero()
  {
    SameValueSameNumber(Scale(a, 0), Zero());
  }

  lemma ScaleByOne(a: BigNumber)
    ensures Scale(a, 1) == a
  {
    SameValueSameNumber(Scale(a, 1), a);
  }

  /** Scaling distributes over addition. */
  lemma ScaleDistributes(a: BigNumber, b: BigNumber, k: nat)
    ensures Scale(Add(a, b), k) == Add(Scale(a, k), Scale(b, k))
  {
    DistributedValues(a, b, k);
    SameValueSameNumber(Scale(Add(a, b), k), Add(Scale(a, k), Scale(b, k)));
  }

  lemma DistributedValues(a: BigNumber, b: BigNumber, k: nat)
    ensures Val(Scale(Add(a, b), k)) == Val(Add(Scale(a, k), Scale(b, k)))
  {
    var sum := Add(a, b);
    var sa, sb := Scale(a, k), Scale(b, k);
    ValuesMeet(Val(a), Val(b), Val(sum), Val(Scale(sum, k)), Val(sa), Val(sb), Val(Add(sa, sb)), k);
  }

  /** Scaling a sum and summing the scaled parts agree in value. */
  lemma ValuesMeet(x: int, y: int, sum: int, scaledSum: int, sx: int, sy: int, sumScaled: int, k: nat)
    requires sum == x + y && scaledSum == k * sum
    requires sx == k * x && sy == k * y && sumScaled == sx + sy
    ensures scaledSum == sumScaled
  {
    Distribute(k, x, y);
  }

  lemma Distribute(k: int, x: int, y: int)
    ensures k * (x + y) == k * x + k * y
  {
  }
}

=== FILE: BigNumber.dfy ===
/** The BigNumber representation: 21 base-1000 segments, least significant
    first, with the unit-name tables, carry normalisation, the top index,
    the constructors and segment access. */
module BigNumbers {
  import opened Positional

  /** Long unit names, one per segment place (SEGMENT_STRINGS_LONG). */
  const SegmentStringsLong: seq<string> :=
    [ "", "thousand", "million", "billion", "trillion", "quadrillion"
    , "quintillion", "sextillion", "septillion", "octillion", "nonillion"
    , "decillion", "undecillion", "duodecillion", "tredecillion"
    , "quatturodecillion", "quindecillion", "sexdecillion", "septendecillion"
    , "octodecillion", "novemdecillion" ]

  /** Short unit names, one per segment place (SEGMENT_STRINGS_SHORT). */
  const SegmentStringsShort: seq<string> :=
    [ "", "thou.", "M", "B", "T", "q", "Q", "s", "S", "O", "N", "d"
    , "UD", "DD", "TD", "qD", "QD", "sD", "SD", "OD", "ND" ]

  /** The number of segments is the length of the long name table. */
  const SegmentCount: nat := |SegmentStringsLong|

  /** The state every operation leaves a BigNumber in: SegmentCount
      non-negative segments, all but the top one below Base. The top
      segment is never reduced and may exceed Base - 1. */
  predicate IsNormalised(s: seq<int>)
  {
    |s| == SegmentCount && Canonical(s)
  }

  type Segments = s: seq<int> | IsNormalised(s)
    witness [0, 0, 0, 0, 0, 0, 0, 0, 0, 0, 0, 0, 0, 0, 0, 0, 0, 0, 0, 0, 0]

  datatype BigNumber = BigNumber(segments: Segments)

  /** The number a BigNumber denotes. */
  function Val(a: BigNumber): (r: nat)
    ensures r == Value(a.segments)
  {
    ValueNonNegative(a.segments);
    Value(a.segments)
  }

  // ---------------------------------------------------------------- normalise

  /** One iteration of the normalise loop at index i: a segment of Base or
      more keeps its remainder and hands its quotient to segment i + 1. */
  function CarryAt(s: seq<int>, i: nat): (r: seq<int>)
    requires i + 1 < |s|
    ensures |r| == |s|
    ensures Value(r) == Value(s)
    ensures forall j :: 0 <= j < |s| && j != i && j != i + 1 ==> r[j] == s[j]
    ensures 0 <= s[i] ==> 0 <= r[i] < Base && r[i + 1] >= s[i + 1]
    ensures s[i] < Base ==> r == s
  {
    if s[i] >= Base then
      var q := s[i] / Base;
      var m := s[i] % Base;
      var t := s[i := m];
      ValueUpdate(s, i, m);
      ValueUpdate(t, i + 1, t[i + 1] + q);
      assert Pow(Base, i + 1) == Base * Pow(Base, i);
      assert (m - s[i]) * Pow(Base, i) + q * (Base * Pow(Base, i)) == (m - s[i] + Base * q) * Pow(Base, i);
      t[i + 1 := t[i + 1] + q]
    else
      s
  }

  /** The normalise loop from index i up to, but excluding, the top segment. */
  function NormaliseFrom(s: seq<int>, i: nat): (r: seq<int>)
    requires i < |s|
    decreases |s| - i
    ensures |r| == |s|
    ensures Value(r) == Value(s)
    ensures forall j :: 0 <= j < i ==> r[j] == s[j]
    ensures (forall j :: i <= j < |s| ==> 0 <= s[j]) ==>
              && (forall j :: i <= j < |s| ==> 0 <= r[j])
              && (forall j :: i <= j < |s| - 1 ==> r[j] < Base)
              && r[|s| - 1] >= s[|s| - 1]
    ensures (forall j :: i <= j < |s| - 1 ==> 0 <= s[j] < Base) ==> r == s
  {
    if i == |s| - 1 then s else NormaliseFrom(CarryAt(s, i), i + 1)
  }

  /** normalise(): every segment but the top one is brought below Base,
      its quotient pushed into the next segment; the value is unchanged. */
  function Normalise(s: seq<int>): (r: seq<int>)
    requires |s| == SegmentCount && NonNegative(s)
    ensures IsNormalised(r)
    ensures Value(r) == Value(s)
    ensures r[SegmentCount - 1] >= s[SegmentCount - 1]
    ensures IsNormalised(s) ==> r == s
  {
    NormaliseFrom(s, 0)
  }

  // ---------------------------------------------------------------- normaliseDecimals

  /** C's round(): nearest integer, halves away from zero. */
  function Round(x: real): (r: int)
    ensures x - 0.5 <= r as real <= x + 0.5
    ensures r as real == x + 0.5 ==> x >= 0.0
    ensures r as real == x - 0.5 ==> x < 0.0
  {
    if x >= 0.0 then (x + 0.5).Floor else -((0.5 - x).Floor)
  }

  /** The number denoted by segments that may carry fractional parts. */
  function RealValue(s: seq<real>): real
  {
    if |s| == 0 then 0.0 else s[0] + Base as real * RealValue(s[1..])
  }

  /** Changing segment i changes the value by the difference at place weight Base^i. */
  lemma {:induction false} RealValueUpdate(s: seq<real>, i: nat, x: real)
    requires i < |s|
    ensures RealValue(s[i := x]) == RealValue(s) + (x - s[i]) * Pow(Base, i) as real
  {
    if i == 0 {
      assert s[i := x][1..] == s[1..];
    } else {
      assert s[i := x][1..] == s[1..][i - 1 := x];
      RealValueUpdate(s[1..], i - 1, x);
      var p := Pow(Base, i - 1);
      assert Pow(Base, i) as real == Base as real * p as real;
    }
  }

  /** Moving a fraction f of the segment at weight Base * p down to the
      segment at weight p, scaled by Base, keeps the value. */
  lemma FractionMoves(f: real, p: real)
    ensures (f * Base as real) * p + (-f) * (Base as real * p) == 0.0
  {
  }

  /** The normaliseDecimals loop from index i: a fractional part of segment
      i is moved, times Base, into segment i - 1 and segment i is floored.
      The value is kept, the segments below i - 1 are untouched, and the top
      segment ends whole. */
  function NormaliseDecimalsFrom(s: seq<real>, i: nat): (r: seq<real>)
    requires 1 <= i <= |s|
    decreases |s| - i
    ensures |r| == |s|
    ensures RealValue(r) == RealValue(s)
    ensures forall j :: 0 <= j < i - 1 ==> r[j] == s[j]
    ensures i < |s| ==> r[|s| - 1] == r[|s| - 1].Floor as real
  {
    if i == |s| then s
    else
      var fraction := s[i] - s[i].Floor as real;
      if fraction != 0.0 then
        var moved := s[i - 1 := s[i - 1] + fraction * Base as real];
        var floored := moved[i := s[i].Floor as real];
        RealValueUpdate(s, i - 1, s[i - 1] + fraction * Base as real);
        RealValueUpdate(moved, i, s[i].Floor as real);
        assert Pow(Base, i) as real == Base as real * Pow(Base, i - 1) as real;
        FractionMoves(fraction, Pow(Base, i - 1) as real);
        NormaliseDecimalsFrom(floored, i + 1)
      else
        NormaliseDecimalsFrom(s, i + 1)
  }

  /** normaliseDecimals(): round segment 0, then redistribute fractional
      parts downwards. The value changes only by the rounding of segment 0,
      and the top segment ends whole. */
  function NormaliseDecimals(s: seq<real>): (r: seq<real>)
    requires |s| >= 1
    ensures |r| == |s|
    ensures RealValue(r) == RealValue(s) + (Round(s[0]) as real - s[0])
    ensures |s| >= 2 ==> r[|s| - 1] == r[|s| - 1].Floor as real
  {
    RealValueUpdate(s, 0, Round(s[0]) as real);
    NormaliseDecimalsFrom(s[0 := Round(s[0]) as real], 1)
  }

  /** Every segment is a whole number. */
  predicate Integral(s: seq<real>)
  {
    forall i :: 0 <= i < |s| ==> s[i] == s[i].Floor as real
  }

  function AsReals(s: seq<int>): (r: seq<real>)
    ensures |r| == |s| && Integral(r)
    ensures forall i :: 0 <= i < |s| ==> r[i].Floor == s[i]
  {
    seq(|s|, i requires 0 <= i < |s| => s[i] as real)
  }

  /** Segment values as stored back into whole segments. */
  function Floors(s: seq<real>): (r: seq<int>)
    ensures |r| == |s|
  {
    seq(|s|, i requires 0 <= i < |s| => s[i].Floor)
  }

  /** Whole segments survive the trip through reals. */
  lemma FloorsOfReals(s: seq<int>)
    ensures Floors(AsReals(s)) == s
  {
  }

  lemma {:induction false} NormaliseDecimalsFromIntegral(s: seq<real>, i: nat)
    requires 1 <= i <= |s| && Integral(s)
    decreases |s| - i
    ensures NormaliseDecimalsFrom(s, i) == s
  {
    if i < |s| {
      NormaliseDecimalsFromIntegral(s, i + 1);
    }
  }

  /** A fraction moved into a segment that the loop has already floored
      stays there: segments below the top need not end whole. */
  lemma FractionLeftBelowTop()
    ensures NormaliseDecimals([0.0, 0.0, 0.0005]) == [0.0, 0.5, 0.0]
  {
    var s := [0.0, 0.0, 0.0005];
    var t := [0.0, 0.5, 0.0];
    assert Round(s[0]) == 0;
    assert s[0 := Round(s[0]) as real] == s;
    assert s[1].Floor == 0 && s[1] - s[1].Floor as real == 0.0;
    assert NormaliseDecimalsFrom(s, 1) == NormaliseDecimalsFrom(s, 2);
    assert s[2].Floor == 0 && s[2] - s[2].Floor as real == 0.0005;
    assert s[1 := s[1] + 0.0005 * Base as real][2 := s[2].Floor as real] == t;
    assert NormaliseDecimalsFrom(s, 2) == NormaliseDecimalsFrom(t, 3) == t;
  }

  /** normaliseDecimals leaves whole-valued segments alone, so on the integer
      segments of a multiplication by a whole scalar it is the identity. */
  lemma NormaliseDecimalsIntegral(s: seq<real>)
    requires |s| >= 1 && Integral(s)
    ensures NormaliseDecimals(s) == s
  {
    assert Round(s[0]) == s[0].Floor;
    assert s[0 := Round(s[0]) as real] == s;
    NormaliseDecimalsFromIntegral(s, 1);
  }

  // ---------------------------------------------------------------- topIndex

  /** The topIndex loop from index i downwards. */
  function TopFrom(s: seq<int>, i: nat): (r: nat)
    requires i < |s|
    ensures r <= i
    ensures forall j :: r < j <= i ==> s[j] == 0
    ensures r > 0 ==> s[r] != 0
  {
    if s[i] != 0 then i else if i == 0 then 0 else TopFrom(s, i - 1)
  }

  /** topIndex() on a raw segment sequence. */
  function TopIndexOf(s: seq<int>): (r: nat)
    requires |s| >= 1
    ensures r < |s|
    ensures forall j :: r < j < |s| ==> s[j] == 0
    ensures r > 0 ==> s[r] != 0
  {
    TopFrom(s, |s| - 1)
  }

  /** topIndex(): the greatest index of a non-zero segment, 0 when all are zero. */
  function TopIndex(a: BigNumber): (r: nat)
    ensures r < SegmentCount
    ensures a.segments[r] != 0 || forall j :: 0 <= j < SegmentCount ==> a.segments[j] == 0
    ensures forall j :: r < j < SegmentCount ==> a.segments[j] == 0
    ensures r > 0 ==> a.segments[r] != 0
  {
    TopIndexOf(a.segments)
  }

  // ---------------------------------------------------------------- construction

  /** The default constructor: every segment zero. */
  function Zero(): (r: BigNumber)
    ensures forall i :: 0 <= i < SegmentCount ==> r.segments[i] == 0
    ensures Val(r) == 0
  {
    var z := seq(SegmentCount, _ => 0);
    ValueAllZero(z);
    BigNumber(z)
  }

  /** MAX_BIG_NUMBER(): every segment 999, the largest value whose segments are all in range. */
  function Max(): (r: BigNumber)
    ensures forall i :: 0 <= i < SegmentCount ==> r.segments[i] == Base - 1
    ensures Val(r) == Pow(Base, SegmentCount) - 1
  {
    var m := seq(SegmentCount, _ => 999);
    ValueAllMax(m);
    BigNumber(m)
  }

  /** The constructor loop on n remaining segments: segment = v % Base, then v /= Base. */
  function Decompose(v: nat, n: nat): (r: seq<int>)
    ensures |r| == n
    ensures InRange(r)
    ensures Value(r) == v % Pow(Base, n)
  {
    if n == 0 then []
    else
      var rest := Decompose(v / Base, n - 1);
      DecomposeStep(v, Pow(Base, n - 1));
      [v % Base] + rest
  }

  /** Peeling one segment off: dividing by Base * p is dividing by Base, then by p. */
  lemma DecomposeStep(v: nat, p: int)
    requires p > 0
    ensures v % (Base * p) == v % Base + Base * ((v / Base) % p)
    ensures v / (Base * p) == (v / Base) / p
  {
    var q := v / Base;
    DivModUnique(v, Base * p, q / p, v % Base + Base * (q % p));
  }

  /** Digit i of v in base 1000: (v / Base^i) % Base. */
  function Digit(v: nat, i: nat): (r: int)
    ensures 0 <= r < Base
  {
    (v / Pow(Base, i)) % Base
  }

  /** Digit i of v is digit i - 1 of v / Base. */
  lemma DigitShift(v: nat, i: nat)
    requires i > 0
    ensures Digit(v, i) == Digit(v / Base, i - 1)
  {
    PowDivide(v, i);
  }

  /** Segment i of the constructor loop's output is digit i of v. */
  lemma {:induction false} DecomposeSegment(v: nat, n: nat, i: nat)
    requires i < n
    ensures Decompose(v, n)[i] == Digit(v, i)
  {
    if i == 0 {
      DecomposeFirst(v, n);
    } else {
      DecomposeSegment(v / Base, n - 1, i - 1);
      DecomposeNext(v, n, i);
    }
  }

  /** Segment 0 of the constructor loop's output is v % Base. */
  lemma DecomposeFirst(v: nat, n: nat)
    requires 0 < n
    ensures Decompose(v, n)[0] == Digit(v, 0)
  {
    assert Pow(Base, 0) == 1;
  }

  /** If segment i - 1 of the loop on v / Base is its digit, segment i of
      the loop on v is digit i of v. */
  lemma DecomposeNext(v: nat, n: nat, i: nat)
    requires 0 < i < n
    requires Decompose(v / Base, n - 1)[i - 1] == Digit(v / Base, i - 1)
    ensures Decompose(v, n)[i] == Digit(v, i)
  {
    DecomposeShift(v, n, i);
    DigitShift(v, i);
  }

  /** Segment i of the loop on v is segment i - 1 of the loop on v / Base. */
  lemma DecomposeShift(v: nat, n: nat, i: nat)
    requires 0 < i < n
    ensures Decompose(v, n)[i] == Decompose(v / Base, n - 1)[i - 1]
  {
    var d := Decompose(v, n);
    assert d[1..] == Decompose(v / Base, n - 1);
    assert d[i] == d[1..][i - 1];
  }

  /** Dividing by Base^i is dividing by Base, then by Base^(i-1). */
  lemma PowDivide(v: nat, i: nat)
    requires i > 0
    ensures v / Pow(Base, i) == (v / Base) / Pow(Base, i - 1)
  {
    var p := Pow(Base, i - 1);
    assert Pow(Base, i) == Base * p;
    DecomposeStep(v, p);
  }

  /** BigNumber(int64_t value) for a non-negative value. */
  function FromInt(v: nat): (r: BigNumber)
    ensures InRange(r.segments)
    ensures Val(r) == v % Pow(Base, SegmentCount)
    ensures v < Pow(Base, SegmentCount) ==> Val(r) == v
  {
    var d := Decompose(v, SegmentCount);
    assert IsNormalised(d);
    if v < Pow(Base, SegmentCount) then
      DivModUnique(v, Pow(Base, SegmentCount), 0, v);
      BigNumber(d)
    else
      BigNumber(d)
  }

  // ---------------------------------------------------------------- getValue

  /** getValue(index): the segment at index, or 0 when index is out of
      range. Below the top that is digit index of the number's value in
      base 1000; the top segment holds everything from its place up. */
  function GetValue(a: BigNumber, index: nat): (r: int)
    ensures index < SegmentCount ==> r == a.segments[index]
    ensures index >= SegmentCount ==> r == 0
    ensures index < SegmentCount - 1 ==> r == (Val(a) / Pow(Base, index)) % Base
    ensures index == SegmentCount - 1 ==> r == Val(a) / Pow(Base, index)
  {
    if index < SegmentCount then
      SegmentOfValue(a.segments, index);
      a.segments[index]
    else 0
  }

  /** In canonical segments, segment i below the top is digit i of the
      value, and the top segment is the value divided by its place weight. */
  lemma SegmentOfValue(s: seq<int>, i: nat)
    requires Canonical(s) && i < |s|
    ensures i < |s| - 1 ==> s[i] == (Value(s) / Pow(Base, i)) % Base
    ensures i == |s| - 1 ==> s[i] == Value(s) / Pow(Base, i)
  {
    var low, high := s[..i], s[i..];
    assert s == low + high;
    ValueConcat(low, high);
    assert InRange(low);
    ValueBound(low);
    DivModUnique(Value(s), Pow(Base, i), Value(high), Value(low));
    assert Value(high) == s[i] + Base * Value(high[1..]);
    if i < |s| - 1 {
      ValueNonNegative(high[1..]);
      DivModUnique(Value(high), Base, Value(high[1..]), s[i]);
    } else {
      assert high[1..] == [];
    }
  }

  // ---------------------------------------------------------------- construction facts

  /** BigNumber(v) sets segment i to (v / 1000^i) % 1000, as read back by getValue. */
  lemma FromIntSegments(v: nat, i: nat)
    ensures GetValue(FromInt(v), i) == if i < SegmentCount then (v / Pow(Base, i)) % Base else 0
  {
    if i < SegmentCount {
      DecomposeSegment(v, SegmentCount, i);
    }
  }

  /** A value below Base^k, for k up to the segment count, is kept exactly. */
  lemma FromIntBelow(v: nat, k: nat)
    requires k <= SegmentCount && v < Pow(Base, k)
    ensures Val(FromInt(v)) == v
  {
    PowMonotone(k, SegmentCount);
  }

  /** Constructing from the value of an in-range number gives that number back. */
  lemma FromIntOfValue(a: BigNumber)
    requires InRange(a.segments)
    ensures FromInt(Val(a)) == a
  {
    var v := Val(a);
    ValueBound(a.segments);
    var b := FromInt(v);
    assert Val(b) == v;
    ValueInjective(b.segments, a.segments);
  }

  /** MAX_BIG_NUMBER is at least every number whose top segment is in range. */
  lemma MaxIsLargest(a: BigNumber)
    requires a.segments[SegmentCount - 1] < Base
    ensures Val(a) <= Val(Max())
  {
    ValueBound(a.segments);
  }

  /** The top index is zero exactly for the values below Base, the zero
      number among them. */
  lemma TopIndexZero(a: BigNumber)
    ensures TopIndex(a) == 0 <==> Val(a) < Base
    ensures TopIndex(Zero()) == 0
  {
    var top := TopIndex(a);
    if top == 0 {
      ValueTruncate(a.segments, 1);
      assert a.segments[..1] == [a.segments[0]];
    } else {
      ValueAtLeastPlace(a.segments, top);
      PowMonotone(1, top);
    }
  }
}

=== FILE: Comparison.dfy ===
/** The six comparison operators of BigNumber.

    `>` is modelled exactly as the source writes it: after the top-index
    test it answers true as soon as ANY segment at or below the receiver's
    top index is larger, without ever answering false early. For
    non-negative segments that collapses to "some segment of a is larger
    than the same segment of b", which is not numeric order (see the
    Findings module). `==` uses the receiver's topIndex(). */
module Comparison {
  import opened Positional
  import opened BigNumbers

  /** The loop of operator> from index i down to 0. */
  function ScanGreater(s: seq<int>, o: seq<int>, i: int): (r: bool)
    requires |s| == |o| && -1 <= i < |s|
    decreases i + 1
    ensures r <==> exists j :: 0 <= j <= i && s[j] > o[j]
  {
    if i < 0 then false
    else if s[i] > o[i] then true
    else ScanGreater(s, o, i - 1)
  }

  /** operator>: true if a's top index is higher, or some segment of a at or
      below that top index is larger than b's. For non-negative segments
      this is exactly "some segment of a is larger". */
  function Greater(a: BigNumber, b: BigNumber): (r: bool)
    ensures r <==> exists j :: 0 <= j < SegmentCount && a.segments[j] > b.segments[j]
  {
    var top := TopIndex(a);
    if top > TopIndex(b) then
      assert a.segments[top] > b.segments[top];
      true
    else
      ScanGreater(a.segments, b.segments, top)
  }

  /** operator<: b > a. */
  function Less(a: BigNumber, b: BigNumber): (r: bool)
    ensures r <==> exists j :: 0 <= j < SegmentCount && b.segments[j] > a.segments[j]
  {
    Greater(b, a)
  }

  /** operator>=: !(a < b), i.e. no segment of b exceeds a's. */
  function GreaterEq(a: BigNumber, b: BigNumber): (r: bool)
    ensures r <==> forall j :: 0 <= j < SegmentCount ==> b.segments[j] <= a.segments[j]
  {
    !Less(a, b)
  }

  /** operator<=: !(a > b), i.e. no segment of a exceeds b's. */
  function LessEq(a: BigNumber, b: BigNumber): (r: bool)
    ensures r <==> forall j :: 0 <= j < SegmentCount ==> a.segments[j] <= b.segments[j]
  {
    !Greater(a, b)
  }

  /** The loop of operator== from index i up to top. */
  function ScanEqual(s: seq<int>, o: seq<int>, i: nat, top: nat): (r: bool)
    requires |s| == |o| && top < |s|
    decreases top + 1 - i
    ensures r <==> forall j :: i <= j <= top ==> s[j] == o[j]
  {
    if i > top then true
    else if s[i] != o[i] then false
    else ScanEqual(s, o, i + 1, top)
  }

  /** operator== with the receiver's topIndex(): equal top indices and equal
      segments up to there, which is equality of the whole number. */
  function Equal(a: BigNumber, b: BigNumber): (r: bool)
    ensures r <==> a == b
  {
    var top := TopIndex(a);
    if top != TopIndex(b) then false
    else
      var same := ScanEqual(a.segments, b.segments, 0, top);
      assert same ==> a.segments == b.segments;
      same
  }

  /** operator!=: !(a == b). */
  function NotEqual(a: BigNumber, b: BigNumber): (r: bool)
    ensures r <==> a != b
  {
    !Equal(a, b)
  }

  /** operator> is irreflexive. */
  lemma GreaterIrreflexive(a: BigNumber)
    ensures !Greater(a, a)
  {
  }

  /** Equal numbers compare neither way, and `>=` together with `<=` holds
      exactly for equal numbers: as written, these two are antisymmetric
      although `>` is not an order. */
  lemma ComparisonEquality(a: BigNumber, b: BigNumber)
    ensures Equal(a, b) ==> !Greater(a, b) && !Less(a, b)
    ensures GreaterEq(a, b) && LessEq(a, b) <==> Equal(a, b)
  {
    if GreaterEq(a, b) && LessEq(a, b) {
      assert forall j :: 0 <= j < SegmentCount ==> a.segments[j] == b.segments[j];
      assert a.segments == b.segments;
    }
  }
}

=== FILE: Decimal.dfy ===
/** Decimal text: the digit strings printf produces for a whole,
    non-negative double with "%1.0lf" and "%03.0lf", the padding "%Ns"
    applies, and the reading-back functions the format proofs use. */
module DecimalText {
  import opened Positional

  predicate IsDigit(c: char)
  {
    '0' <= c <= '9'
  }

  predicate AllDigits(s: string)
  {
    forall i :: 0 <= i < |s| ==> IsDigit(s[i])
  }

  function DigitChar(d: int): (c: char)
    requires 0 <= d < 10
    ensures IsDigit(c)
  {
    (d + '0' as int) as char
  }

  /** The number a string of decimal digits spells, most significant first. */
  function DigitsValue(s: string): nat
    requires AllDigits(s)
  {
    if |s| == 0 then 0 else DigitsValue(s[..|s| - 1]) * 10 + (s[|s| - 1] as int - '0' as int)
  }

  /** "%1.0lf" of a whole value n >= 0: its decimal digits, no leading zero. */
  function Decimal(n: nat): (r: string)
    ensures |r| >= 1 && AllDigits(r)
    ensures DigitsValue(r) == n
    ensures r[0] == '0' ==> n == 0
    ensures n < 10 ==> |r| == 1
    ensures n < 100 ==> |r| <= 2
    ensures n < 1000 ==> |r| <= 3
    ensures n >= 100 ==> |r| >= 3
  {
    if n < 10 then [DigitChar(n)]
    else
      var r := Decimal(n / 10) + [DigitChar(n % 10)];
      assert r[..|r| - 1] == Decimal(n / 10);
      r
  }

  /** A digit string with a non-zero first digit spells a positive number. */
  lemma {:induction false} LeadingDigitPositive(t: string)
    requires |t| >= 1 && AllDigits(t) && t[0] != '0'
    ensures DigitsValue(t) >= 1
  {
    if |t| > 1 {
      LeadingDigitPositive(t[..|t| - 1]);
    }
  }

  /** "%1.0lf" is the only spelling of n without a leading zero: any digit
      string that reads back as n and starts with '0' only when it is a
      single digit is Decimal(n). */
  lemma {:induction false} DecimalUnique(t: string, n: nat)
    requires |t| >= 1 && AllDigits(t) && DigitsValue(t) == n
    requires |t| > 1 ==> t[0] != '0'
    ensures t == Decimal(n)
  {
    if |t| > 1 {
      var front, d := SplitLast(t);
      LeadingDigitPositive(front);
      var q := DigitsValue(front);
      WholeTens(n, q, d);
      DecimalUnique(front, q);
      DecimalStep(n);
    } else {
      SingleDigit(t);
    }
  }

  /** A digit string is its digits but the last, then the last digit. */
  lemma SplitLast(t: string) returns (front: string, d: int)
    requires |t| >= 1 && AllDigits(t)
    ensures AllDigits(front) && |front| == |t| - 1 && 0 <= d < 10
    ensures t == front + [DigitChar(d)]
    ensures DigitsValue(t) == DigitsValue(front) * 10 + d
    ensures |front| >= 1 ==> front[0] == t[0]
  {
    front := t[..|t| - 1];
    d := t[|t| - 1] as int - '0' as int;
    assert t == front + [t[|t| - 1]];
  }

  lemma SingleDigit(t: string)
    requires |t| == 1 && AllDigits(t)
    ensures t == Decimal(DigitsValue(t))
  {
    var d := t[0] as int - '0' as int;
    assert t[..0] == [];
    assert DigitsValue(t) == d;
    assert t == [DigitChar(d)];
  }

  /** Decimal(n) for n >= 10 is Decimal(n / 10) and then the units digit. */
  lemma DecimalStep(n: nat)
    requires n >= 10
    ensures Decimal(n) == Decimal(n / 10) + [DigitChar(n % 10)]
  {
  }

  lemma WholeTens(n: int, q: int, d: int)
    requires q >= 1 && 0 <= d < 10 && n == q * 10 + d
    ensures n >= 10 && n / 10 == q && n % 10 == d
  {
    DivModUnique(n, 10, q, d);
  }

  /** "%Ns": s preceded by as many copies of c as make it width long. */
  function LeftPad(s: string, c: char, width: nat): (r: string)
    ensures |r| == if |s| >= width then |s| else width
    ensures r[|r| - |s|..] == s
    ensures forall i :: 0 <= i < |r| - |s| ==> r[i] == c
  {
    if |s| >= width then s else seq(width - |s|, _ => c) + s
  }

  /** Reading digits back: the value of a concatenation. */
  lemma {:induction false} DigitsValueConcat(x: string, y: string)
    requires AllDigits(x) && AllDigits(y)
    ensures AllDigits(x + y)
    ensures DigitsValue(x + y) == DigitsValue(x) * Pow(10, |y|) + DigitsValue(y)
  {
    if |y| > 0 {
      var y' := y[..|y| - 1];
      var last := y[|y| - 1] as int - '0' as int;
      assert (x + y)[..|x + y| - 1] == x + y';
      assert (x + y)[|x + y| - 1] == y[|y| - 1];
      DigitsValueConcat(x, y');
      var dx, p, dy := DigitsValue(x), Pow(10, |y'|), DigitsValue(y');
      assert DigitsValue(x + y) == (dx * p + dy) * 10 + last;
      assert DigitsValue(y) == dy * 10 + last;
      assert Pow(10, |y|) == 10 * p;
      ShiftDigit(dx, p, dy, last);
    } else {
      assert x + y == x;
    }
  }

  lemma ShiftDigit(dx: int, p: int, dy: int, last: int)
    ensures (dx * p + dy) * 10 + last == dx * (10 * p) + (dy * 10 + last)
  {
  }

  /** Leading zeros do not change the value read back. */
  lemma {:induction false} DigitsValueZeros(s: string)
    requires forall i :: 0 <= i < |s| ==> s[i] == '0'
    ensures AllDigits(s) && DigitsValue(s) == 0
  {
    if |s| > 0 {
      DigitsValueZeros(s[..|s| - 1]);
    }
  }

  /** Leading zeros in front of digits do not change their value. */
  lemma ZerosInFront(zeros: string, digits: string)
    requires forall i :: 0 <= i < |zeros| ==> zeros[i] == '0'
    requires AllDigits(digits)
    ensures AllDigits(zeros + digits) && DigitsValue(zeros + digits) == DigitsValue(digits)
  {
    DigitsValueZeros(zeros);
    DigitsValueConcat(zeros, digits);
  }

  /** "%03.0lf" of a whole value n >= 0: its digits, zero-padded to width 3. */
  function Pad3(n: nat): (r: string)
    ensures AllDigits(r) && DigitsValue(r) == n
    ensures n < 1000 ==> |r| == 3
  {
    var digits := Decimal(n);
    var r := LeftPad(digits, '0', 3);
    var zeros := r[..|r| - |digits|];
    assert r == zeros + digits;
    ZerosInFront(zeros, digits);
    r
  }

  /** s with every occurrence of c removed. */
  function Without(s: string, c: char): (r: string)
    ensures |r| <= |s|
    ensures forall i :: 0 <= i < |r| ==> r[i] != c
  {
    if |s| == 0 then [] else (if s[0] == c then [] else [s[0]]) + Without(s[1..], c)
  }

  /** The number of occurrences of c in s. */
  function Occurrences(s: string, c: char): nat
  {
    if |s| == 0 then 0 else (if s[0] == c then 1 else 0) + Occurrences(s[1..], c)
  }

  lemma {:induction false} WithoutConcat(x: string, y: string, c: char)
    ensures Without(x + y, c) == Without(x, c) + Without(y, c)
  {
    if |x| > 0 {
      assert (x + y)[1..] == x[1..] + y;
      WithoutConcat(x[1..], y, c);
    } else {
      assert x + y == y;
    }
  }

  lemma {:induction false} OccurrencesConcat(x: string, y: string, c: char)
    ensures Occurrences(x + y, c) == Occurrences(x, c) + Occurrences(y, c)
  {
    if |x| > 0 {
      assert (x + y)[1..] == x[1..] + y;
      OccurrencesConcat(x[1..], y, c);
    } else {
      assert x + y == y;
    }
  }

  /** A string in which c does not occur: removing c keeps it, and c is counted zero times. */
  lemma {:induction false} Absent(s: string, c: char)
    requires forall i :: 0 <= i < |s| ==> s[i] != c
    ensures Without(s, c) == s && Occurrences(s, c) == 0
  {
    if |s| > 0 {
      Absent(s[1..], c);
      assert s == [s[0]] + s[1..];
    }
  }

  /** Ten to the 3n is Base to the n: three decimal digits per segment. */
  lemma {:induction false} PowTenCubed(n: nat)
    ensures Pow(10, 3 * n) == Pow(Base, n)
  {
    if n > 0 {
      PowTenCubed(n - 1);
      assert 3 * n == 3 * (n - 1) + 3;
      PowAdd(10, 3 * (n - 1), 3);
    }
  }

  lemma {:induction false} PowAdd(b: int, e: nat, f: nat)
    ensures Pow(b, e + f) == Pow(b, e) * Pow(b, f)
  {
    if f > 0 {
      PowAdd(b, e, f - 1);
      var pe, pf := Pow(b, e), Pow(b, f - 1);
      assert Pow(b, e + f) == b * Pow(b, e + (f - 1));
      assert Pow(b, f) == b * pf;
      MulRotate(b, pe, pf);
    }
  }

  lemma MulRotate(x: int, y: int, z: int)
    ensures x * (y * z) == y * (x * z)
  {
  }
}

=== FILE: Findings.dfy ===
/** Two places where the source's arithmetic does not do what a big
    number promises. For each: the behaviour as written, an input that
    shows it, and a corrected definition with the intended property
    proved.

    1. operator> answers true as soon as any segment of the receiver is
       larger, so 999 > 1000 and 1000 > 999 both hold; operator-= then
       mistakes 1000 for a smaller number and returns zero for 1000 - 999.
    2. The borrow in operator-= is guarded by index + 1 < topIndex(),
       evaluated on the segments being rewritten. With a correct
       comparison, 1000 - 999 reaches index 0 with topIndex() == 1, drops
       the borrow, and yields 1001. The guard should only keep the borrow
       inside the segment array.

    Two further lines have undefined behaviour, and the rest of the model
    uses the evident intent:

    3. operator== initialises its local top index from itself, so the
       value it compares with other.topIndex() is indeterminate; equal
       numbers compare unequal whenever it is not the receiver's top index.
    4. getValue's guard admits index == SEGMENT_COUNT, one past the last
       segment. */
module Findings {
  import opened Positional
  import opened BigNumbers
  import opened Comparison
  import opened Arithmetic
  import opened Scenarios

  // ---------------------------------------------------------------- the comparison

  /** 999 and 1000 are each greater than the other under operator>, and
      operator- returns zero for 1000 - 999. */
  lemma GreaterIsNotAnOrder(thousand: BigNumber, nines: BigNumber)
    requires Val(thousand) == 1000 && Val(nines) == 999
    ensures Greater(nines, thousand) && Greater(thousand, nines)
    ensures Sub(thousand, nines) == Zero()
  {
    ThousandSegments(thousand);
    NinesSegments(nines);
    assert nines.segments[0] > thousand.segments[0];
    assert thousand.segments[1] > nines.segments[1];
  }

  /** 1 + 999 - 999 is not 1 with the operators as written. */
  lemma SubAsWrittenNotInverse(one: BigNumber, nines: BigNumber)
    requires Val(one) == 1 && Val(nines) == 999
    ensures Sub(Add(one, nines), nines) == Zero() != one
  {
    GreaterIsNotAnOrder(Add(one, nines), nines);
  }

  /** The comparison scanned from index i down: the highest differing
      segment decides. */
  function LexGreater(s: seq<int>, o: seq<int>, i: int): bool
    requires |s| == |o| && -1 <= i < |s|
    decreases i + 1
  {
    if i < 0 then false
    else if s[i] != o[i] then s[i] > o[i]
    else LexGreater(s, o, i - 1)
  }

  /** A larger segment at i outweighs everything below it. */
  lemma PrefixDominates(s: seq<int>, o: seq<int>, i: nat)
    requires |s| == |o| && i < |s|
    requires forall j :: 0 <= j < i ==> 0 <= s[j] < Base && 0 <= o[j] < Base
    requires s[i] > o[i] >= 0
    ensures Value(s[..i + 1]) > Value(o[..i + 1])
  {
    ValuePrefix(s, i);
    ValuePrefix(o, i);
    assert InRange(s[..i]) && InRange(o[..i]);
    ValueBound(s[..i]);
    ValueBound(o[..i]);
    DigitOutweighs(Value(s[..i]), Value(o[..i]), s[i], o[i], Pow(Base, i));
  }

  /** Place-value arithmetic: lower parts below p cannot make up a
      difference of one in the digit of weight p. */
  lemma DigitOutweighs(vs: int, vo: int, x: int, y: int, p: int)
    requires 0 <= vs && vo < p && x > y && p > 0
    ensures vs + x * p > vo + y * p
  {
    MulAtLeast(p, x - y);
    assert x * p - y * p == p * (x - y);
  }

  /** With segments below i in range, the scan from i compares the values
      of the prefixes ending at i. */
  lemma {:induction false} LexGreaterValue(s: seq<int>, o: seq<int>, i: int)
    requires |s| == |o| && -1 <= i < |s|
    requires forall j :: 0 <= j < i ==> 0 <= s[j] < Base && 0 <= o[j] < Base
    requires i >= 0 ==> 0 <= s[i] && 0 <= o[i]
    decreases i + 1
    ensures LexGreater(s, o, i) <==> Value(s[..i + 1]) > Value(o[..i + 1])
  {
    if i >= 0 {
      if s[i] > o[i] {
        PrefixDominates(s, o, i);
      } else if s[i] < o[i] {
        PrefixDominates(o, s, i);
      } else {
        ValuePrefix(s, i);
        ValuePrefix(o, i);
        LexGreaterValue(s, o, i - 1);
      }
    }
  }

  /** A number with a higher top index is larger. */
  lemma TopDominates(a: BigNumber, b: BigNumber)
    requires TopIndex(a) > TopIndex(b)
    ensures Val(a) > Val(b)
  {
    var ta, tb := TopIndex(a), TopIndex(b);
    ValueAtLeastPlace(a.segments, ta);
    var low := b.segments[..tb + 1];
    assert InRange(low);
    ValueBound(low);
    PowMonotone(tb + 1, ta);
    ValueTruncate(b.segments, tb + 1);
  }

  /** The corrected operator>: the higher top index wins; with equal top
      indices the highest differing segment decides. It is numeric order. */
  function GreaterFixed(a: BigNumber, b: BigNumber): (r: bool)
    ensures r <==> Val(a) > Val(b)
  {
    var ta, tb := TopIndex(a), TopIndex(b);
    if ta > tb then
      TopDominates(a, b);
      true
    else if ta < tb then
      TopDominates(b, a);
      false
    else
      ValueTruncate(a.segments, ta + 1);
      ValueTruncate(b.segments, tb + 1);
      LexGreaterValue(a.segments, b.segments, ta);
      LexGreater(a.segments, b.segments, ta)
  }

  // ---------------------------------------------------------------- equality

  /** operator== as written, with the indeterminate local top index as the
      parameter t: unequal unless t is b's top index, otherwise the
      segments 0..t are compared. */
  function EqualAsWritten(a: BigNumber, b: BigNumber, t: nat): (r: bool)
    ensures r <==> t == TopIndex(b) && forall j :: 0 <= j <= t ==> a.segments[j] == b.segments[j]
  {
    if t != TopIndex(b) then false else ScanEqual(a.segments, b.segments, 0, t)
  }

  /** A number differs from itself when the local holds anything but its top index. */
  lemma EqualAsWrittenNotReflexive(a: BigNumber, t: nat)
    requires t != TopIndex(a)
    ensures !EqualAsWritten(a, a, t) && Equal(a, a)
  {
  }

  /** When the local does hold the receiver's top index, the operator as
      written is the corrected Equal, which is equality of numbers. */
  lemma EqualAsIntended(a: BigNumber, b: BigNumber)
    ensures EqualAsWritten(a, b, TopIndex(a)) == Equal(a, b)
    ensures Equal(a, b) <==> Val(a) == Val(b)
  {
    if Val(a) == Val(b) {
      SameValueSameNumber(a, b);
    }
  }

  // ---------------------------------------------------------------- segment access

  datatype Read = Segment(value: int) | PastEnd

  /** getValue as written: the guard index >= 0 && index <= SEGMENT_COUNT
      (always true for the unsigned index at its low end) lets index
      SEGMENT_COUNT through to a read past the last segment. */
  function GetValueAsWritten(a: BigNumber, index: nat): (r: Read)
    ensures index < SegmentCount ==> r == Segment(a.segments[index])
    ensures index == SegmentCount ==> r == PastEnd
    ensures index > SegmentCount ==> r == Segment(0)
  {
    if index <= SegmentCount then
      if index < |a.segments| then Segment(a.segments[index]) else PastEnd
    else Segment(0)
  }

  /** The guard as written differs from the corrected getValue exactly at
      index SEGMENT_COUNT, where it reads outside the segments. */
  lemma GetValueGuardOffByOne(a: BigNumber, index: nat)
    ensures GetValueAsWritten(a, index) == PastEnd <==> index == SegmentCount
    ensures index != SegmentCount ==> GetValueAsWritten(a, index) == Segment(GetValue(a, index))
  {
  }

  // ---------------------------------------------------------------- the borrow

  /** The value of segments 1, 1. */
  lemma ThousandOneValue()
    ensures Value([1, 1]) == 1001
  {
  }

  /** With 1000 > 999 decided correctly, the borrowing loop as written
      turns 1000 - 999 into 1001: at index 0 the current top index is 1,
      so the borrow from segment 1 is dropped. */
  lemma BorrowGuardDropsBorrow(thousand: BigNumber, nines: BigNumber)
    requires Val(thousand) == 1000 && Val(nines) == 999
    ensures GreaterFixed(thousand, nines)
    ensures Value(BorrowPass(thousand.segments, nines.segments, 0)) == 1001
  {
    ThousandSegments(thousand);
    NinesSegments(nines);
    DroppedBorrow(thousand.segments, nines.segments);
  }

  /** The loop as written on the segments of 1000 and 999. */
  lemma DroppedBorrow(s: seq<int>, o: seq<int>)
    requires |s| == |o| >= 2
    requires s[0] == 0 && s[1] == 1 && forall j :: 2 <= j < |s| ==> s[j] == 0
    requires o[0] == 999 && forall j :: 1 <= j < |o| ==> o[j] == 0
    ensures Value(BorrowPass(s, o, 0)) == 1001
  {
    PassOnThousand(s, o);
    ThousandOne(s[0 := 1]);
  }

  /** The only change the loop makes to 1000's segments is lifting index 0. */
  lemma PassOnThousand(s: seq<int>, o: seq<int>)
    requires |s| == |o| >= 2
    requires s[0] == 0 && s[1] == 1 && forall j :: 2 <= j < |s| ==> s[j] == 0
    requires o[0] == 999 && forall j :: 1 <= j < |o| ==> o[j] == 0
    ensures BorrowPass(s, o, 0) == s[0 := 1]
  {
    var lifted := s[0 := 1];
    assert forall j :: 1 <= j < |lifted| ==> lifted[j] == s[j];
    NoBorrowAbove(lifted, o);
    LiftedTop(lifted);
    FirstStepDropsBorrow(s, o);
  }

  /** Segments 1, 1, 0, ... denote 1001. */
  lemma ThousandOne(s: seq<int>)
    requires |s| >= 2 && s[0] == 1 && s[1] == 1
    requires forall j :: 2 <= j < |s| ==> s[j] == 0
    ensures Value(s) == 1001
  {
    ValueTruncate(s, 2);
    assert s[..2] == [1, 1];
    ThousandOneValue();
  }

  /** At index 0 a negative difference is lifted by Base, and when the
      top index is then at most 1 no borrow is taken. */
  lemma FirstStepDropsBorrow(s: seq<int>, o: seq<int>)
    requires |s| == |o| >= 2 && s[0] < o[0]
    requires TopIndexOf(s[0 := s[0] - o[0] + Base]) <= 1
    ensures BorrowPass(s, o, 0) == BorrowPass(s[0 := s[0] - o[0] + Base], o, 1)
  {
  }

  /** After index 0 is lifted, the top index of 1000's segments is 1. */
  lemma LiftedTop(s: seq<int>)
    requires |s| >= 2 && s[1] == 1 && forall j :: 2 <= j < |s| ==> s[j] == 0
    ensures TopIndexOf(s) == 1
  {
  }

  /** From index 1 on, 999 has nothing to subtract. */
  lemma NoBorrowAbove(s: seq<int>, o: seq<int>)
    requires |s| == |o| && 1 <= |s|
    requires forall j :: 1 <= j < |s| ==> 0 <= s[j] && o[j] == 0
    ensures BorrowPass(s, o, 1) == s
  {
    BorrowPassNoBorrow(s, o, 1);
  }

  /** The corrected borrowing loop: a negative segment takes Base and
      decrements the next segment whenever there is one. */
  function BorrowPassFixed(s: seq<int>, o: seq<int>, i: nat): (r: seq<int>)
    requires |s| == |o| && i <= |s|
    decreases |s| - i
    ensures |r| == |s|
    ensures forall j :: 0 <= j < i ==> r[j] == s[j]
    ensures (forall j :: i <= j < |s| ==> 0 <= o[j] < Base) &&
            (forall j :: i <= j < |s| - 1 ==> s[j] < Base) &&
            (i < |s| ==> -1 <= s[i]) && (forall j :: i < j < |s| ==> 0 <= s[j]) ==>
              forall j :: i <= j < |s| - 1 ==> 0 <= r[j] < Base
  {
    if i == |s| then s
    else
      var d := s[i] - o[i];
      if d < 0 then
        var lifted := s[i := d + Base];
        var borrowed := if i + 1 < |s| then lifted[i + 1 := lifted[i + 1] - 1] else lifted;
        BorrowPassFixed(borrowed, o, i + 1)
      else
        BorrowPassFixed(s[i := d], o, i + 1)
  }

  /** What is left to compute when the loop stands at index i: the value of
      the partly rewritten segments minus the part of o not yet subtracted. */
  function Remaining(s: seq<int>, o: seq<int>, i: nat): int
    requires i <= |o|
  {
    Value(s) - Pow(Base, i) * Value(o[i..])
  }

  /** Splitting off segment i of the part of o still to subtract. */
  lemma TailValueStep(o: seq<int>, i: nat)
    requires i < |o|
    ensures Pow(Base, i) * Value(o[i..]) == o[i] * Pow(Base, i) + Pow(Base, i + 1) * Value(o[i + 1..])
  {
    assert o[i..][1..] == o[i + 1..];
    var p, v := Pow(Base, i), Value(o[i + 1..]);
    assert Value(o[i..]) == o[i] + Base * v;
    assert p * (o[i] + Base * v) == o[i] * p + (Base * p) * v;
  }

  /** When nothing is owed overall, the top segment does not underflow. */
  lemma NoTopUnderflow(s: seq<int>, o: seq<int>, i: nat)
    requires |s| == |o| && i == |s| - 1
    requires forall j :: 0 <= j < i ==> 0 <= s[j] < Base
    requires Remaining(s, o, i) >= 0
    ensures s[i] >= o[i]
  {
    var p := Pow(Base, i);
    TopSplit(s, i);
    LastOwed(o, i);
    assert InRange(s[..i]);
    ValueBound(s[..i]);
    TopDigitCovers(Value(s[..i]), s[i], o[i], p);
  }

  /** The value of s is its part below i plus the top segment at weight Base^i. */
  lemma TopSplit(s: seq<int>, i: nat)
    requires i == |s| - 1
    ensures Value(s) == Value(s[..i]) + s[i] * Pow(Base, i)
  {
    assert s[..i + 1] == s;
    ValuePrefix(s, i);
  }

  /** At the last index only o's top segment is still owed. */
  lemma LastOwed(o: seq<int>, i: nat)
    requires i == |o| - 1
    ensures Pow(Base, i) * Value(o[i..]) == o[i] * Pow(Base, i)
  {
    TailValueStep(o, i);
    assert o[i + 1..] == [];
  }

  /** A lower part below p cannot pay for a top digit x smaller than y. */
  lemma TopDigitCovers(low: int, x: int, y: int, p: int)
    requires 0 <= low < p && low + x * p - y * p >= 0
    ensures x >= y
  {
    assert (x - y) * p == x * p - y * p;
    MulAboveMinus(p, x - y);
  }

  /** A multiple of d above -d is not negative. */
  lemma MulAboveMinus(d: int, k: int)
    requires d > 0 && d * k > -d
    ensures k >= 0
  {
    if k < 0 {
      MulAtLeast(d, -k);
    }
  }

  /** Subtracting segment i without a borrow keeps what remains. */
  lemma KeepStep(s: seq<int>, o: seq<int>, i: nat)
    requires |s| == |o| && i < |s|
    ensures Remaining(s[i := s[i] - o[i]], o, i + 1) == Remaining(s, o, i)
  {
    TailValueStep(o, i);
    ValueUpdate(s, i, s[i] - o[i]);
  }

  /** Subtracting segment i with a borrow from segment i + 1 keeps what remains. */
  lemma BorrowStep(s: seq<int>, o: seq<int>, i: nat)
    requires |s| == |o| && i + 1 < |s|
    ensures var lifted := s[i := s[i] - o[i] + Base];
            Remaining(lifted[i + 1 := lifted[i + 1] - 1], o, i + 1) == Remaining(s, o, i)
  {
    var lifted := s[i := s[i] - o[i] + Base];
    TailValueStep(o, i);
    ValueUpdate(s, i, s[i] - o[i] + Base);
    ValueUpdate(lifted, i + 1, lifted[i + 1] - 1);
    assert Pow(Base, i + 1) == Base * Pow(Base, i);
  }

  /** What the corrected loop needs at index i: o's segments non-negative
      and below Base under the top; s's segments in range except that
      segment i may have been decremented by a borrow, and the top segment
      is non-negative once the loop is past it. */
  predicate Ready(s: seq<int>, o: seq<int>, i: nat)
  {
    && |s| == |o| >= 1 && i <= |s|
    && (forall j :: 0 <= j < |o| ==> 0 <= o[j])
    && (forall j :: 0 <= j < |o| - 1 ==> o[j] < Base)
    && (forall j :: 0 <= j < i && j < |s| - 1 ==> 0 <= s[j] < Base)
    && (forall j :: i < j < |s| - 1 ==> 0 <= s[j] < Base)
    && (i < |s| - 1 ==> -1 <= s[i] < Base)
    && (i == |s| ==> s[|s| - 1] >= 0)
  }

  /** The corrected loop from index i computes what remains, and leaves
      the lower segments in range and the top segment non-negative. */
  lemma {:induction false} BorrowPassFixedValue(s: seq<int>, o: seq<int>, i: nat)
    requires Ready(s, o, i) && Remaining(s, o, i) >= 0
    decreases |s| - i
    ensures Value(BorrowPassFixed(s, o, i)) == Remaining(s, o, i)
    ensures Canonical(BorrowPassFixed(s, o, i))
  {
    if i < |s| {
      var t := Step(s, o, i);
      BorrowPassFixedValue(t, o, i + 1);
    } else {
      Done(s, o);
    }
  }

  /** Past the last index nothing is owed and the segments are canonical. */
  lemma Done(s: seq<int>, o: seq<int>)
    requires Ready(s, o, |s|)
    ensures BorrowPassFixed(s, o, |s|) == s
    ensures Remaining(s, o, |s|) == Value(s) && Canonical(s)
  {
    assert o[|s|..] == [];
  }

  /** One iteration of the corrected loop: the loop is ready at i + 1 on
      the rewritten segments t, with the same remainder. */
  lemma Step(s: seq<int>, o: seq<int>, i: nat) returns (t: seq<int>)
    requires Ready(s, o, i) && i < |s| && Remaining(s, o, i) >= 0
    ensures Ready(t, o, i + 1)
    ensures Remaining(t, o, i + 1) == Remaining(s, o, i)
    ensures BorrowPassFixed(s, o, i) == BorrowPassFixed(t, o, i + 1)
  {
    if i == |s| - 1 {
      NoTopUnderflow(s, o, i);
    }
    t := StepCases(s, o, i);
  }

  /** One iteration once the top segment is known to cover what it owes. */
  lemma StepCases(s: seq<int>, o: seq<int>, i: nat) returns (t: seq<int>)
    requires Ready(s, o, i) && i < |s|
    requires i == |s| - 1 ==> s[i] >= o[i]
    ensures Ready(t, o, i + 1)
    ensures Remaining(t, o, i + 1) == Remaining(s, o, i)
    ensures BorrowPassFixed(s, o, i) == BorrowPassFixed(t, o, i + 1)
  {
    if s[i] - o[i] >= 0 {
      t := KeepCase(s, o, i);
    } else {
      t := BorrowCase(s, o, i);
    }
  }

  /** A step without a borrow leaves the loop ready at i + 1 with the same remainder. */
  lemma KeepCase(s: seq<int>, o: seq<int>, i: nat) returns (t: seq<int>)
    requires Ready(s, o, i) && i < |s| && s[i] - o[i] >= 0
    ensures t == s[i := s[i] - o[i]]
    ensures Ready(t, o, i + 1)
    ensures Remaining(t, o, i + 1) == Remaining(s, o, i)
    ensures BorrowPassFixed(s, o, i) == BorrowPassFixed(t, o, i + 1)
  {
    t := s[i := s[i] - o[i]];
    KeepStep(s, o, i);
    assert forall j :: 0 <= j < |s| && j != i ==> t[j] == s[j];
  }

  /** A step with a borrow leaves the loop ready at i + 1 with the same remainder. */
  lemma BorrowCase(s: seq<int>, o: seq<int>, i: nat) returns (t: seq<int>)
    requires Ready(s, o, i) && i < |s| && s[i] - o[i] < 0
    requires i == |s| - 1 ==> s[i] >= o[i]
    ensures i + 1 < |s|
    ensures t == s[i := s[i] - o[i] + Base][i + 1 := s[i + 1] - 1]
    ensures Ready(t, o, i + 1)
    ensures Remaining(t, o, i + 1) == Remaining(s, o, i)
    ensures BorrowPassFixed(s, o, i) == BorrowPassFixed(t, o, i + 1)
  {
    var lifted := s[i := s[i] - o[i] + Base];
    t := lifted[i + 1 := lifted[i + 1] - 1];
    BorrowStep(s, o, i);
    assert forall j :: 0 <= j < |s| && j != i && j != i + 1 ==> t[j] == s[j];
  }

  /** The corrected operator-=: zero when b is larger by the corrected
      comparison, otherwise the corrected borrowing loop and normalise.
      It is numeric subtraction, and zero on underflow. */
  function SubFixed(a: BigNumber, b: BigNumber): (r: BigNumber)
    ensures Val(b) > Val(a) ==> r == Zero()
    ensures Val(b) <= Val(a) ==> Val(r) == Val(a) - Val(b)
  {
    if GreaterFixed(b, a) then Zero()
    else
      assert b.segments[0..] == b.segments;
      BorrowPassFixedValue(a.segments, b.segments, 0);
      BigNumber(Normalise(BorrowPassFixed(a.segments, b.segments, 0)))
  }

  /** With the corrections, subtracting what was added gives back the number. */
  lemma SubFixedInverse(a: BigNumber, b: BigNumber)
    ensures SubFixed(Add(a, b), b) == a
  {
    SameValueSameNumber(SubFixed(Add(a, b), b), a);
  }
}

=== FILE: Format.dfy ===
/** The two renderers of BigNumber: toStringE, the comma-grouped digits
    (optionally right-aligned), and toString, the unit-name form. The text
    is built directly; the fixed buffers and format strings of the source
    are not modelled. */
module Format {
  import opened Positional
  import opened DecimalText
  import opened BigNumbers

  /** The width a right-aligned toStringE is padded to: SEGMENT_COUNT * 4 + 3. */
  const AlignWidth: nat := SegmentCount * 4 + 3

  // ---------------------------------------------------------------- toStringE

  /** What one iteration of the toStringE loop writes for index i: the top
      segment unpadded, any other zero-padded to three digits, followed by
      a comma unless i is 0. */
  function Piece(s: Segments, top: nat, i: nat): (r: string)
    requires i <= top < |s|
    ensures Without(r, ',') == PieceDigits(s, top, i)
    ensures Occurrences(r, ',') == if i != 0 then 1 else 0
  {
    var digits := PieceDigits(s, top, i);
    var comma: string := if i != 0 then "," else "";
    forall j | 0 <= j < |digits|
      ensures digits[j] != ','
    {
      assert IsDigit(digits[j]);
    }
    Absent(digits, ',');
    WithoutConcat(digits, comma, ',');
    OccurrencesConcat(digits, comma, ',');
    assert Without(comma, ',') == "";
    digits + comma
  }

  /** The toStringE loop from index i down to 0: each iteration but the
      last writes exactly one comma. */
  function Emit(s: Segments, top: nat, i: nat): (r: string)
    requires i <= top < |s|
    ensures Occurrences(r, ',') == i
  {
    var piece := Piece(s, top, i);
    var rest := if i == 0 then "" else Emit(s, top, i - 1);
    OccurrencesConcat(piece, rest, ',');
    piece + rest
  }

  /** The digits of one piece: Pad3 below the top, Decimal at the top. */
  function PieceDigits(s: Segments, top: nat, i: nat): (r: string)
    requires i <= top < |s|
    ensures AllDigits(r) && DigitsValue(r) == s[i]
    ensures i < top ==> |r| == 3
    ensures i == top ==> |r| >= 1 && (r[0] == '0' ==> s[i] == 0)
  {
    if i != top then Pad3(s[i]) else Decimal(s[i])
  }

  /** The rest of the loop after index i, empty once index 0 is written. */
  function After(s: Segments, top: nat, i: nat): string
    requires i <= top < |s|
  {
    if i == 0 then "" else Emit(s, top, i - 1)
  }

  /** With the commas removed, the loop output from index i is the digits
      of piece i followed by those of the pieces below it. */
  lemma EmitWithoutCommas(s: Segments, top: nat, i: nat)
    requires i <= top < |s|
    ensures Without(Emit(s, top, i), ',') == PieceDigits(s, top, i) + Without(After(s, top, i), ',')
  {
    assert Emit(s, top, i) == Piece(s, top, i) + After(s, top, i);
    WithoutConcat(Piece(s, top, i), After(s, top, i), ',');
  }

  /** Below the top, the loop writes three digits per segment, and with
      the commas removed they spell the value of segments 0..i. */
  lemma {:induction false} EmitLowerDigits(s: Segments, top: nat, i: nat)
    requires i < top < |s|
    ensures AllDigits(Without(Emit(s, top, i), ','))
    ensures |Without(Emit(s, top, i), ',')| == 3 * i + 3
    ensures DigitsValue(Without(Emit(s, top, i), ',')) == Value(s[..i + 1])
  {
    if i > 0 {
      EmitLowerDigits(s, top, i - 1);
    }
    JoinPiece(s, top, i);
  }

  /** One step of the loop read back: piece i's digits in front of the
      digits of the pieces below, which spell the value of segments 0..i-1. */
  lemma JoinPiece(s: Segments, top: nat, i: nat)
    requires i <= top < |s|
    requires i > 0 ==>
               var lower := Without(Emit(s, top, i - 1), ',');
               AllDigits(lower) && |lower| == 3 * i && DigitsValue(lower) == Value(s[..i])
    ensures AllDigits(Without(Emit(s, top, i), ','))
    ensures |Without(Emit(s, top, i), ',')| == |PieceDigits(s, top, i)| + 3 * i
    ensures DigitsValue(Without(Emit(s, top, i), ',')) == Value(s[..i + 1])
  {
    EmitWithoutCommas(s, top, i);
    var digits := PieceDigits(s, top, i);
    var lower := Without(After(s, top, i), ',');
    if i == 0 {
      assert lower == "";
      assert digits + lower == digits;
      assert s[..0] == [];
    }
    DigitsValueConcat(digits, lower);
    PowTenCubed(i);
    ValuePrefix(s, i);
    PlaceJoin(DigitsValue(digits), s[i], Pow(10, |lower|), Pow(Base, i),
              DigitsValue(lower), Value(s[..i]), DigitsValue(digits + lower), Value(s[..i + 1]));
  }

  /** The piece at weight p in front of the lower part gives the prefix value. */
  lemma PlaceJoin(d: int, seg: int, pw: int, p: int, lv: int, low: int, joined: int, prefix: int)
    requires d == seg && pw == p && lv == low
    requires joined == d * pw + lv && prefix == low + seg * p
    ensures joined == prefix
  {
  }

  /** With the commas removed, the whole loop output spells the value of segments 0..top. */
  lemma EmitDigits(s: Segments, top: nat)
    requires top < |s|
    ensures AllDigits(Without(Emit(s, top, top), ','))
    ensures DigitsValue(Without(Emit(s, top, top), ',')) == Value(s[..top + 1])
  {
    if top > 0 {
      EmitLowerDigits(s, top, top - 1);
    }
    JoinPiece(s, top, top);
  }

  /** toStringE's text before alignment: segments from the top index down to 0. */
  function Grouped(a: BigNumber): (r: string)
    ensures Occurrences(r, ',') == TopIndex(a)
  {
    var top := TopIndex(a);
    Emit(a.segments, top, top)
  }

  /** toStringE(rightAlign): the grouped text, left-padded with spaces to
      AlignWidth characters when rightAlign is set. */
  function ToStringE(a: BigNumber, rightAlign: bool := false): (r: string)
    ensures Occurrences(r, ',') == TopIndex(a)
    ensures !rightAlign ==> r == Grouped(a)
    ensures |r| >= |Grouped(a)|
    ensures rightAlign ==>
              && |r| == (if |Grouped(a)| >= AlignWidth then |Grouped(a)| else AlignWidth)
              && r[|r| - |Grouped(a)|..] == Grouped(a)
              && forall i :: 0 <= i < |r| - |Grouped(a)| ==> r[i] == ' '
  {
    var text := Grouped(a);
    if rightAlign then
      var r := LeftPad(text, ' ', AlignWidth);
      var spaces := r[..|r| - |text|];
      assert r == spaces + text;
      Absent(spaces, ',');
      OccurrencesConcat(spaces, text, ',');
      r
    else
      text
  }

  /** Read with its commas removed, toStringE is the exact decimal value:
      it reads back as the value and is "%1.0lf" of the value, so it has
      no leading zero. */
  lemma ToStringEDenotesValue(a: BigNumber)
    ensures AllDigits(Without(ToStringE(a, false), ','))
    ensures DigitsValue(Without(ToStringE(a, false), ',')) == Val(a)
    ensures Without(ToStringE(a, false), ',') == Decimal(Val(a))
  {
    var s, top := a.segments, TopIndex(a);
    var digits := Without(Emit(s, top, top), ',');
    EmitDigits(s, top);
    ValueTruncate(s, top + 1);
    EmitWithoutCommas(s, top, top);
    var head := PieceDigits(s, top, top);
    assert digits[..|head|] == head;
    DecimalUnique(digits, Val(a));
  }

  /** Zero renders as "0". */
  lemma ToStringEZero()
    ensures ToStringE(Zero(), false) == "0"
  {
    assert TopIndex(Zero()) == 0;
    assert Decimal(0) == "0";
  }

  // ---------------------------------------------------------------- toString

  /** The unit name for a top index: the long or the short table. */
  function UnitName(top: nat, longVersion: bool): (r: string)
    requires top < SegmentCount
    ensures r == (if longVersion then SegmentStringsLong else SegmentStringsShort)[top]
  {
    if longVersion then SegmentStringsLong[top] else SegmentStringsShort[top]
  }

  /** "%1.0lf %s": the digits of n, a space, then the name. */
  function WithUnit(n: nat, name: string): (r: string)
    ensures var k := |r| - |name| - 1;
              && 0 < k && r[k] == ' ' && r[k + 1..] == name
              && AllDigits(r[..k]) && DigitsValue(r[..k]) == n
              && (r[0] == '0' ==> n == 0)
  {
    var digits := Decimal(n);
    var r := digits + " " + name;
    assert r[..|digits|] == digits;
    r
  }

  /** "%1.0lf,%03.0lf" of segments 1 and 0, and "%1.0lf" of segment 0. */
  function Small(a: BigNumber, top: nat): (r: string)
    requires top <= 1 && top == TopIndex(a)
    ensures r == Grouped(a)
  {
    var s := a.segments;
    if top == 1 then
      EmitTwo(s);
      Decimal(s[1]) + "," + Pad3(s[0])
    else
      EmitOne(s);
      Decimal(s[0])
  }

  /** The toStringE loop over two segments. */
  lemma EmitTwo(s: Segments)
    ensures Emit(s, 1, 1) == Decimal(s[1]) + "," + Pad3(s[0])
  {
    EmitStep(s, 1, 1);
    EmitLast(s, 1);
  }

  /** The toStringE loop over one segment. */
  lemma EmitOne(s: Segments)
    ensures Emit(s, 0, 0) == Decimal(s[0])
  {
    EmitLast(s, 0);
  }

  /** An iteration above index 0: the piece's digits, a comma, then the rest. */
  lemma EmitStep(s: Segments, top: nat, i: nat)
    requires 0 < i <= top < |s|
    ensures Emit(s, top, i) == PieceDigits(s, top, i) + "," + Emit(s, top, i - 1)
  {
    assert Piece(s, top, i) == PieceDigits(s, top, i) + ",";
  }

  /** The last iteration writes the digits of segment 0 and no comma. */
  lemma EmitLast(s: Segments, top: nat)
    requires top < |s|
    ensures Emit(s, top, 0) == PieceDigits(s, top, 0)
  {
    var digits := PieceDigits(s, top, 0);
    assert Piece(s, top, 0) == digits + "";
    assert Emit(s, top, 0) == digits + "";
  }

  /** toString(longVersion): below a million the grouped digits; from a
      million up, the top segment's digits, a space, and the unit name of
      the top index. */
  function ToString(a: BigNumber, longVersion: bool := true): (r: string)
    ensures TopIndex(a) <= 1 ==> r == Grouped(a)
    ensures TopIndex(a) > 1 ==>
              var name := UnitName(TopIndex(a), longVersion);
              var k := |r| - |name| - 1;
              && 0 < k && r[k] == ' ' && r[k + 1..] == name
              && AllDigits(r[..k]) && DigitsValue(r[..k]) == a.segments[TopIndex(a)]
              && r[0] != '0'
  {
    var top := TopIndex(a);
    var name := UnitName(top, longVersion);
    if top > 1 then WithUnit(a.segments[top], name) else Small(a, top)
  }
}

=== FILE: Positional.dfy ===
/** Positional notation in base 1000.

    A BigNumber keeps its magnitude as a sequence of segments, least
    significant first; this module defines the number such a sequence
    denotes, value(s) = s[0] + 1000 * s[1] + 1000^2 * s[2] + ..., and the
    facts about it that the arithmetic and the formatting proofs share. */
module Positional {

  /** The radix of one segment (MAX_SEGMENT_VALUE in the source). */
  const Base: int := 1000

  /** b raised to the e-th power. */
  function Pow(b: int, e: nat): (r: int)
    ensures b > 0 ==> r > 0
  {
    if e == 0 then 1 else b * Pow(b, e - 1)
  }

  /** The number denoted by a segment sequence, least-significant segment first. */
  function Value(s: seq<int>): int
  {
    if |s| == 0 then 0 else s[0] + Base * Value(s[1..])
  }

  /** Every segment lies in [0, Base). */
  predicate InRange(s: seq<int>)
  {
    forall i :: 0 <= i < |s| ==> 0 <= s[i] < Base
  }

  /** Every segment is non-negative. */
  predicate NonNegative(s: seq<int>)
  {
    forall i :: 0 <= i < |s| ==> 0 <= s[i]
  }

  /** Every segment but the last lies in [0, Base), the last is non-negative. */
  predicate Canonical(s: seq<int>)
  {
    && NonNegative(s)
    && forall i :: 0 <= i < |s| - 1 ==> s[i] < Base
  }

  /** Element-wise sum. */
  function Plus(a: seq<int>, b: seq<int>): (r: seq<int>)
    requires |a| == |b|
    ensures |r| == |a|
    ensures forall i :: 0 <= i < |r| ==> r[i] == a[i] + b[i]
  {
    seq(|a|, i requires 0 <= i < |a| => a[i] + b[i])
  }

  /** Element-wise difference. */
  function Minus(a: seq<int>, b: seq<int>): (r: seq<int>)
    requires |a| == |b|
    ensures |r| == |a|
    ensures forall i :: 0 <= i < |r| ==> r[i] == a[i] - b[i]
  {
    seq(|a|, i requires 0 <= i < |a| => a[i] - b[i])
  }

  /** Every segment multiplied by k. */
  function Times(a: seq<int>, k: int): (r: seq<int>)
    ensures |r| == |a|
    ensures forall i :: 0 <= i < |r| ==> r[i] == a[i] * k
  {
    seq(|a|, i requires 0 <= i < |a| => a[i] * k)
  }

  /** Changing one segment moves the value by the change times its place weight. */
  lemma {:induction false} ValueUpdate(s: seq<int>, i: nat, x: int)
    requires i < |s|
    ensures Value(s[i := x]) == Value(s) + (x - s[i]) * Pow(Base, i)
  {
    if i == 0 {
      assert s[i := x][1..] == s[1..];
    } else {
      assert s[i := x][1..] == s[1..][i - 1 := x];
      ValueUpdate(s[1..], i - 1, x);
      var d := x - s[i];
      assert Base * (d * Pow(Base, i - 1)) == d * (Base * Pow(Base, i - 1));
    }
  }

  /** The value of a concatenation: the upper part is shifted by |p| places. */
  lemma {:induction false} ValueConcat(p: seq<int>, q: seq<int>)
    ensures Value(p + q) == Value(p) + Pow(Base, |p|) * Value(q)
  {
    if |p| == 0 {
      assert p + q == q;
    } else {
      assert (p + q)[1..] == p[1..] + q;
      ValueConcat(p[1..], q);
      var v := Value(q);
      assert Base * (Pow(Base, |p| - 1) * v) == (Base * Pow(Base, |p| - 1)) * v;
    }
  }

  /** Extending a prefix by one segment adds that segment at its place weight. */
  lemma ValuePrefix(s: seq<int>, n: nat)
    requires n < |s|
    ensures Value(s[..n + 1]) == Value(s[..n]) + s[n] * Pow(Base, n)
  {
    assert s[..n + 1] == s[..n] + [s[n]];
    ValueConcat(s[..n], [s[n]]);
    assert Value([s[n]]) == s[n];
  }

  /** All-zero sequences denote zero. */
  lemma {:induction false} ValueAllZero(s: seq<int>)
    requires forall i :: 0 <= i < |s| ==> s[i] == 0
    ensures Value(s) == 0
  {
    if |s| > 0 {
      ValueAllZero(s[1..]);
    }
  }

  /** Zero segments above index n contribute nothing. */
  lemma ValueTruncate(s: seq<int>, n: nat)
    requires n <= |s|
    requires forall i :: n <= i < |s| ==> s[i] == 0
    ensures Value(s) == Value(s[..n])
  {
    assert s == s[..n] + s[n..];
    ValueConcat(s[..n], s[n..]);
    ValueAllZero(s[n..]);
  }

  /** Non-negative segments denote a non-negative number. */
  lemma {:induction false} ValueNonNegative(s: seq<int>)
    requires NonNegative(s)
    ensures Value(s) >= 0
  {
    if |s| > 0 {
      ValueNonNegative(s[1..]);
    }
  }

  /** In-range segments denote a number below Base^|s|. */
  lemma {:induction false} ValueBound(s: seq<int>)
    requires InRange(s)
    ensures 0 <= Value(s) < Pow(Base, |s|)
  {
    if |s| > 0 {
      ValueBound(s[1..]);
    }
  }

  /** A sequence of Base - 1 everywhere denotes Base^|s| - 1. */
  lemma {:induction false} ValueAllMax(s: seq<int>)
    requires forall i :: 0 <= i < |s| ==> s[i] == Base - 1
    ensures Value(s) == Pow(Base, |s|) - 1
  {
    if |s| > 0 {
      ValueAllMax(s[1..]);
    }
  }

  /** A canonical sequence with a positive segment at index t is at least Base^t. */
  lemma ValueAtLeastPlace(s: seq<int>, t: nat)
    requires NonNegative(s) && t < |s| && s[t] > 0
    ensures Value(s) >= Pow(Base, t)
  {
    assert s == s[..t] + s[t..];
    ValueConcat(s[..t], s[t..]);
    ValueNonNegative(s[..t]);
    assert s[t..][1..] == s[t + 1..];
    ValueNonNegative(s[t + 1..]);
    assert Value(s[t..]) >= 1;
  }

  lemma {:induction false} ValuePlus(a: seq<int>, b: seq<int>)
    requires |a| == |b|
    ensures Value(Plus(a, b)) == Value(a) + Value(b)
  {
    if |a| > 0 {
      assert Plus(a, b)[1..] == Plus(a[1..], b[1..]);
      ValuePlus(a[1..], b[1..]);
    }
  }

  lemma {:induction false} ValueMinus(a: seq<int>, b: seq<int>)
    requires |a| == |b|
    ensures Value(Minus(a, b)) == Value(a) - Value(b)
  {
    if |a| > 0 {
      assert Minus(a, b)[1..] == Minus(a[1..], b[1..]);
      ValueMinus(a[1..], b[1..]);
    }
  }

  lemma {:induction false} ValueTimes(a: seq<int>, k: int)
    ensures Value(Times(a, k)) == k * Value(a)
  {
    if |a| > 0 {
      assert Times(a, k)[1..] == Times(a[1..], k);
      ValueTimes(a[1..], k);
      var v := Value(a[1..]);
      assert a[0] * k + Base * (k * v) == k * (a[0] + Base * v);
    }
  }

  /** Base^e grows with e. */
  lemma {:induction false} PowMonotone(e: nat, f: nat)
    requires e <= f
    ensures Pow(Base, e) <= Pow(Base, f)
  {
    if e < f {
      PowMonotone(e, f - 1);
    }
  }

  /** Euclidean division is unique. */
  lemma DivModUnique(x: int, d: int, q: int, r: int)
    requires d > 0 && 0 <= r < d && x == d * q + r
    ensures x / d == q && x % d == r
  {
    var q' := x / d;
    var r' := x % d;
    assert d * (q' - q) == r - r';
    MulBelowDivisor(d, q' - q);
  }

  /** A multiple of d strictly between -d and d is zero. */
  lemma MulBelowDivisor(d: int, k: int)
    requires d > 0 && -d < d * k < d
    ensures k == 0
  {
    if k > 0 {
      MulAtLeast(d, k);
    } else if k < 0 {
      MulAtLeast(d, -k);
    }
  }

  lemma {:induction false} MulAtLeast(d: int, k: int)
    requires d > 0 && k >= 1
    ensures d * k >= d
  {
    if k > 1 {
      MulAtLeast(d, k - 1);
      assert d * k == d * (k - 1) + d;
    }
  }

  /** Canonical sequences of equal length denote distinct numbers: the
      segment representation of a value is unique. */
  lemma {:induction false} ValueInjective(s: seq<int>, t: seq<int>)
    requires |s| == |t| >= 1
    requires forall i :: 0 <= i < |s| - 1 ==> 0 <= s[i] < Base && 0 <= t[i] < Base
    requires Value(s) == Value(t)
    ensures s == t
  {
    if |s| == 1 {
      assert Value(s) == s[0];
      assert Value(t) == t[0];
    } else {
      var vs := Value(s[1..]);
      var vt := Value(t[1..]);
      DivModUnique(Value(s), Base, vs, s[0]);
      DivModUnique(Value(t), Base, vt, t[0]);
      ValueInjective(s[1..], t[1..]);
      assert s == [s[0]] + s[1..];
      assert t == [t[0]] + t[1..];
    }
  }
}

=== FILE: Scenarios.dfy ===
/** The sample values the demonstration driver builds and prints, and the
    extra samples 999 and 1 + 999, stated as facts about the model. Each
    fact is stated for every number with the sample's value, and the
    constructor is shown to build numbers with those values. */
module Scenarios {
  import opened Positional
  import opened DecimalText
  import opened BigNumbers
  import opened Comparison
  import opened Arithmetic
  import opened Format

  /** The number whose low segments are `low` and whose other segments are zero. */
  function Literal(low: seq<int>): (r: BigNumber)
    requires |low| <= SegmentCount && InRange(low)
    ensures r.segments[..|low|] == low
    ensures forall i :: |low| <= i < SegmentCount ==> r.segments[i] == 0
    ensures Val(r) == Value(low)
  {
    var zeros := seq(SegmentCount - |low|, _ => 0);
    var s := low + zeros;
    assert s[..|low|] == low;
    ValueConcat(low, zeros);
    ValueAllZero(zeros);
    BigNumber(s)
  }

  /** The number with the value of `low` is the literal of `low`. */
  lemma ByValue(a: BigNumber, low: seq<int>)
    requires |low| <= SegmentCount && InRange(low) && Val(a) == Value(low)
    ensures a == Literal(low)
  {
    SameValueSameNumber(a, Literal(low));
  }

  // ---------------------------------------------------------------- the constructor

  /** BigNumber(v) keeps the driver's sample values exactly. */
  lemma SamplesConstructed()
    ensures Val(FromInt(1)) == 1 && Val(FromInt(999)) == 999 && Val(FromInt(1000)) == 1000
    ensures Val(FromInt(350256123)) == 350256123
  {
    FromIntBelow(1, 1);
    FromIntBelow(999, 1);
    FromIntBelow(1000, 2);
    FromIntBelow(350256123, 3);
  }

  // ---------------------------------------------------------------- 350256123

  /** big = 350256123 has segments 123, 256, 350 and top index 2. */
  lemma BigSegments(a: BigNumber)
    requires Val(a) == 350256123
    ensures a.segments[0] == 123 && a.segments[1] == 256 && a.segments[2] == 350
    ensures TopIndex(a) == 2
  {
    assert Value([123, 256, 350]) == 350256123;
    ByValue(a, [123, 256, 350]);
    var s := a.segments;
    assert s[..3] == [123, 256, 350];
    assert s[0] == s[..3][0] && s[1] == s[..3][1] && s[2] == s[..3][2];
  }

  /** big prints as "350 M" (short) and "350 million" (long). */
  lemma BigUnitForm(a: BigNumber)
    requires Val(a) == 350256123
    ensures ToString(a, false) == "350 M"
    ensures ToString(a) == "350 million"
  {
    BigSegments(a);
    UnitForm(a, false);
    UnitForm(a, true);
    DecimalLiterals();
    assert UnitName(2, false) == "M" && UnitName(2, true) == "million";
  }

  /** big prints as "350,256,123". */
  lemma BigGrouped(a: BigNumber)
    requires Val(a) == 350256123
    ensures ToStringE(a) == "350,256,123"
  {
    BigSegments(a);
    GroupedThree(a);
    DecimalLiterals();
    Pad3Exact(256);
    Pad3Exact(123);
    assert Grouped(a) == "350" + "," + "256" + "," + "123";
  }

  /** The driver's `BigNumber big(350256123)`, printed in all three forms. */
  lemma DriverBig()
    ensures Val(FromInt(350256123)) == 350256123
    ensures ToString(FromInt(350256123), false) == "350 M"
    ensures ToString(FromInt(350256123)) == "350 million"
    ensures ToStringE(FromInt(350256123)) == "350,256,123"
  {
    SamplesConstructed();
    BigPrinted(FromInt(350256123));
  }

  /** Any number worth 350256123 prints as the driver shows big. */
  lemma BigPrinted(a: BigNumber)
    requires Val(a) == 350256123
    ensures ToString(a, false) == "350 M" && ToString(a) == "350 million"
    ensures ToStringE(a) == "350,256,123"
  {
    BigUnitForm(a);
    BigGrouped(a);
  }

  /** The grouped text of a number whose top index is 2. */
  lemma GroupedThree(a: BigNumber)
    requires TopIndex(a) == 2
    ensures Grouped(a) == Decimal(a.segments[2]) + "," + Pad3(a.segments[1]) + "," + Pad3(a.segments[0])
  {
    var s := a.segments;
    EmitStep(s, 2, 2);
    EmitStep(s, 2, 1);
    EmitLast(s, 2);
    var d2, p1, p0 := PieceDigits(s, 2, 2), PieceDigits(s, 2, 1), PieceDigits(s, 2, 0);
    assert Emit(s, 2, 2) == d2 + "," + (p1 + "," + p0);
    CommaJoin(d2, p1, p0);
  }

  /** Regrouping a comma-joined text. */
  lemma CommaJoin(x: string, y: string, z: string)
    ensures x + "," + (y + "," + z) == x + "," + y + "," + z
  {
  }

  /** A three-digit value needs no zero padding. */
  lemma Pad3Exact(n: nat)
    requires 100 <= n < 1000
    ensures Pad3(n) == Decimal(n)
  {
  }

  lemma DecimalLiterals()
    ensures Decimal(123) == "123" && Decimal(256) == "256" && Decimal(350) == "350"
    ensures Decimal(999) == "999" && Decimal(5) == "5"
  {
    ThreeDigits(123);
    ThreeDigits(256);
    ThreeDigits(350);
    ThreeDigits(999);
  }

  /** A three-digit value prints as its hundreds, tens and units digits. */
  lemma ThreeDigits(n: nat)
    requires 100 <= n < 1000
    ensures Decimal(n) == [DigitChar(n / 100), DigitChar(n / 10 % 10), DigitChar(n % 10)]
  {
    DecimalStep(n);
    DecimalStep(n / 10);
  }

  // ---------------------------------------------------------------- MAX_BIG_NUMBER

  /** From a million up, toString is the top segment's digits, a space and the unit name. */
  lemma UnitForm(a: BigNumber, longVersion: bool)
    requires TopIndex(a) > 1
    ensures ToString(a, longVersion) == Decimal(a.segments[TopIndex(a)]) + " " + UnitName(TopIndex(a), longVersion)
  {
  }

  /** MAX_BIG_NUMBER prints as "999 novemdecillion" and "999 ND". */
  lemma MaxRendered()
    ensures TopIndex(Max()) == SegmentCount - 1
    ensures ToString(Max(), true) == "999 novemdecillion"
    ensures ToString(Max(), false) == "999 ND"
  {
    AllNinesRendered(Max());
  }

  lemma AllNinesRendered(a: BigNumber)
    requires forall i :: 0 <= i < SegmentCount ==> a.segments[i] == Base - 1
    ensures TopIndex(a) == SegmentCount - 1
    ensures ToString(a, true) == "999 novemdecillion"
    ensures ToString(a, false) == "999 ND"
  {
    assert a.segments[SegmentCount - 1] != 0;
    assert TopIndex(a) == SegmentCount - 1;
    NinesTopRendered(a);
  }

  lemma NinesTopRendered(a: BigNumber)
    requires TopIndex(a) == SegmentCount - 1 && a.segments[SegmentCount - 1] == 999
    ensures ToString(a, true) == "999 novemdecillion"
    ensures ToString(a, false) == "999 ND"
  {
    UnitForm(a, true);
    UnitForm(a, false);
    TopNames();
    DecimalLiterals();
  }

  /** The unit names of the top segment place. */
  lemma TopNames()
    ensures UnitName(SegmentCount - 1, true) == "novemdecillion"
    ensures UnitName(SegmentCount - 1, false) == "ND"
  {
  }

  /** MAX_BIG_NUMBER - MAX_BIG_NUMBER is zero and prints as "0". */
  lemma MaxMinusMax()
    ensures Sub(Max(), Max()) == Zero()
    ensures ToStringE(Sub(Max(), Max()), false) == "0"
  {
    SubSelf(Max());
    ToStringEZero();
  }

  /** MAX_BIG_NUMBER * 20: every carry lands in the next segment and the
      top segment, which normalise never reduces, holds 19999. It prints as
      "19999 ND" and "19999 novemdecillion". */
  lemma MaxTimesTwenty()
    ensures Val(Scale(Max(), 20)) == 20 * Val(Max())
    ensures Scale(Max(), 20).segments == [980] + seq(SegmentCount - 2, _ => 999) + [19999]
    ensures ToString(Scale(Max(), 20), false) == "19999 ND"
    ensures ToString(Scale(Max(), 20)) == "19999 novemdecillion"
  {
    TwentyMaxRendered(Scale(Max(), 20));
  }

  lemma TwentyMaxRendered(m: BigNumber)
    requires Val(m) == 20 * (Pow(Base, SegmentCount) - 1)
    ensures m.segments == [980] + seq(SegmentCount - 2, _ => 999) + [19999]
    ensures ToString(m, false) == "19999 ND"
    ensures ToString(m) == "19999 novemdecillion"
  {
    TwentyMaxSegments(m);
    TopOf19999Short(m);
    TopOf19999Long(m);
  }

  /** A top segment of 19999 prints as "19999 ND" in the short version. */
  lemma TopOf19999Short(m: BigNumber)
    requires m.segments[SegmentCount - 1] == 19999
    ensures ToString(m, false) == "19999 ND"
  {
    assert TopIndex(m) == SegmentCount - 1;
    UnitForm(m, false);
    TopNames();
    Decimal19999();
  }

  /** A top segment of 19999 prints as "19999 novemdecillion" in the long version. */
  lemma TopOf19999Long(m: BigNumber)
    requires m.segments[SegmentCount - 1] == 19999
    ensures ToString(m) == "19999 novemdecillion"
  {
    assert TopIndex(m) == SegmentCount - 1;
    UnitForm(m, true);
    TopNames();
    Decimal19999();
    SpacedLong(Decimal(19999), UnitName(SegmentCount - 1, true));
  }

  lemma Decimal19999()
    ensures Decimal(19999) == "19999"
  {
  }

  lemma SpacedLong(digits: string, name: string)
    requires digits == "19999" && name == "novemdecillion"
    ensures digits + " " + name == "19999 novemdecillion"
  {
  }

  /** The number worth 20 * (1000^21 - 1) has segments 980, 999, ..., 999, 19999. */
  lemma TwentyMaxSegments(m: BigNumber)
    requires Val(m) == 20 * (Pow(Base, SegmentCount) - 1)
    ensures m.segments == [980] + seq(SegmentCount - 2, _ => 999) + [19999]
    ensures m.segments[SegmentCount - 1] == 19999
  {
    var mid := seq(SegmentCount - 2, _ => 999);
    var t := [980] + mid + [19999];
    TwentyNinesValue(SegmentCount);
    assert t[0] == 980 && t[SegmentCount - 1] == 19999;
    assert forall j :: 1 <= j < SegmentCount - 1 ==> t[j] == mid[j - 1];
    assert IsNormalised(t);
    SameValueSameNumber(m, BigNumber(t));
  }

  /** Segments 980, then n - 2 nines, then 19999 denote 20 * 1000^n - 20. */
  lemma TwentyNinesValue(n: nat)
    requires n >= 2
    ensures Value([980] + seq(n - 2, _ => 999) + [19999]) == 20 * Pow(Base, n) - 20
  {
    var mid := seq(n - 2, _ => 999);
    var low := [980] + mid;
    ValueConcat(low, [19999]);
    ValueConcat([980], mid);
    ValueAllMax(mid);
    assert Value([19999]) == 19999;
    assert Value([980]) == 980;
    var p := Pow(Base, n - 2);
    assert Pow(Base, n - 1) == Base * p;
    assert Pow(Base, n) == Base * (Base * p);
  }

  /** MAX_BIG_NUMBER - 1 (the 1 converted by BigNumber(int64_t)): the only
      subtraction of the driver with a non-zero result, leaving 998 in
      segment 0. */
  lemma MaxMinusOne()
    ensures Val(Sub(Max(), FromInt(1))) == Val(Max()) - 1
    ensures Sub(Max(), FromInt(1)).segments == [998] + seq(SegmentCount - 1, _ => 999)
  {
    FromIntBelow(1, 1);
    MaxMinusOneOf(FromInt(1));
  }

  lemma MaxMinusOneOf(one: BigNumber)
    requires Val(one) == 1
    ensures Val(Sub(Max(), one)) == Val(Max()) - 1
    ensures Sub(Max(), one).segments == [998] + seq(SegmentCount - 1, _ => 999)
  {
    MaxMinusOneSegments(one);
    NinesAbove(Sub(Max(), one).segments, 998);
  }

  lemma MaxMinusOneSegments(one: BigNumber)
    requires Val(one) == 1
    ensures Val(Sub(Max(), one)) == Val(Max()) - 1
    ensures Sub(Max(), one).segments[0] == 998
    ensures forall j :: 1 <= j < SegmentCount ==> Sub(Max(), one).segments[j] == 999
  {
    OneSegments(one);
    NothingAboveMax(one);
    SubIsSegmentwise(Max(), one);
  }

  /** Segments holding low at index 0 and 999 everywhere above. */
  lemma NinesAbove(d: seq<int>, low: int)
    requires |d| == SegmentCount && d[0] == low
    requires forall j :: 1 <= j < SegmentCount ==> d[j] == 999
    ensures d == [low] + seq(SegmentCount - 1, _ => 999)
  {
    var expected := [low] + seq(SegmentCount - 1, _ => 999);
    assert forall j :: 0 <= j < SegmentCount ==> d[j] == expected[j];
  }

  /** 1 has segment 0 equal to 1 and zeros above. */
  lemma OneSegments(a: BigNumber)
    requires Val(a) == 1
    ensures a.segments[0] == 1
    ensures forall j :: 1 <= j < SegmentCount ==> a.segments[j] == 0
  {
    assert Value([1]) == 1;
    ByValue(a, [1]);
    assert a.segments[0] == a.segments[..1][0];
  }

  /** No number with in-range segments is greater than MAX_BIG_NUMBER under operator<. */
  lemma NothingAboveMax(a: BigNumber)
    requires InRange(a.segments)
    ensures !Less(Max(), a)
  {
    assert forall j :: 0 <= j < SegmentCount ==> a.segments[j] <= Max().segments[j];
  }

  // ---------------------------------------------------------------- copy and copy * 5

  /** The driver's `copy`, big + (big + big), and `copy * 5`: their values
      and all three printed forms. */
  lemma DriverCopy(big: BigNumber)
    requires Val(big) == 350256123
    ensures Val(Add(big, Add(big, big))) == 1050768369
    ensures Val(Scale(Add(big, Add(big, big)), 5)) == 5253841845
    ensures ToString(Add(big, Add(big, big)), false) == "1 B"
    ensures ToString(Add(big, Add(big, big))) == "1 billion"
    ensures ToStringE(Add(big, Add(big, big))) == "1,050,768,369"
    ensures ToString(Scale(Add(big, Add(big, big)), 5), false) == "5 B"
    ensures ToString(Scale(Add(big, Add(big, big)), 5)) == "5 billion"
    ensures ToStringE(Scale(Add(big, Add(big, big)), 5)) == "5,253,841,845"
  {
    var copy := Add(big, Add(big, big));
    CopyPrinted(copy);
    CopyTimesFivePrinted(Scale(copy, 5));
  }

  /** Any number worth 1050768369 prints as the driver shows copy. */
  lemma CopyPrinted(a: BigNumber)
    requires Val(a) == 1050768369
    ensures ToString(a, false) == "1 B" && ToString(a) == "1 billion"
    ensures ToStringE(a) == "1,050,768,369"
  {
    CopySegments(a);
    BillionsForm(a, 1);
    CopyGrouped(a);
  }

  /** copy = 1050768369 has segments 369, 768, 50, 1 and top index 3. */
  lemma CopySegments(a: BigNumber)
    requires Val(a) == 1050768369
    ensures a.segments[0] == 369 && a.segments[1] == 768 && a.segments[2] == 50 && a.segments[3] == 1
    ensures TopIndex(a) == 3
  {
    assert Value([369, 768, 50, 1]) == 1050768369;
    FourSegments(a, [369, 768, 50, 1]);
  }

  lemma CopyGrouped(a: BigNumber)
    requires TopIndex(a) == 3
    requires a.segments[0] == 369 && a.segments[1] == 768 && a.segments[2] == 50 && a.segments[3] == 1
    ensures ToStringE(a) == "1,050,768,369"
  {
    CopyPieces();
    CopyJoined();
    FourGroups(a, "1", "050", "768", "369");
  }

  lemma CopyPieces()
    ensures Decimal(1) == "1" && Pad3(50) == "050" && Pad3(768) == "768" && Pad3(369) == "369"
  {
    PadFifty();
    Pad3Digits(768);
    Pad3Digits(369);
  }

  lemma CopyJoined()
    ensures "1" + "," + "050" + "," + "768" + "," + "369" == "1,050,768,369"
  {
  }

  /** Any number worth 5253841845 prints as the driver shows copy * 5. */
  lemma CopyTimesFivePrinted(a: BigNumber)
    requires Val(a) == 5253841845
    ensures ToString(a, false) == "5 B" && ToString(a) == "5 billion"
    ensures ToStringE(a) == "5,253,841,845"
  {
    CopyTimesFiveSegments(a);
    BillionsForm(a, 5);
    CopyTimesFiveGrouped(a);
  }

  /** copy * 5 = 5253841845 has segments 845, 841, 253, 5 and top index 3. */
  lemma CopyTimesFiveSegments(a: BigNumber)
    requires Val(a) == 5253841845
    ensures a.segments[0] == 845 && a.segments[1] == 841 && a.segments[2] == 253 && a.segments[3] == 5
    ensures TopIndex(a) == 3
  {
    assert Value([845, 841, 253, 5]) == 5253841845;
    FourSegments(a, [845, 841, 253, 5]);
  }

  lemma CopyTimesFiveGrouped(a: BigNumber)
    requires TopIndex(a) == 3
    requires a.segments[0] == 845 && a.segments[1] == 841 && a.segments[2] == 253 && a.segments[3] == 5
    ensures ToStringE(a) == "5,253,841,845"
  {
    CopyTimesFivePieces();
    CopyTimesFiveJoined();
    FourGroups(a, "5", "253", "841", "845");
  }

  lemma CopyTimesFivePieces()
    ensures Decimal(5) == "5" && Pad3(253) == "253" && Pad3(841) == "841" && Pad3(845) == "845"
  {
    Pad3Digits(253);
    Pad3Digits(841);
    Pad3Digits(845);
  }

  lemma CopyTimesFiveJoined()
    ensures "5" + "," + "253" + "," + "841" + "," + "845" == "5,253,841,845"
  {
  }

  /** The number worth Value(low), for four segments with a non-zero top,
      has exactly those low segments and top index 3. */
  lemma FourSegments(a: BigNumber, low: seq<int>)
    requires |low| == 4 && InRange(low) && low[3] != 0 && Val(a) == Value(low)
    ensures a.segments[0] == low[0] && a.segments[1] == low[1]
    ensures a.segments[2] == low[2] && a.segments[3] == low[3]
    ensures TopIndex(a) == 3
  {
    ByValue(a, low);
    var s := a.segments;
    assert s[..4] == low;
    assert s[0] == s[..4][0] && s[1] == s[..4][1] && s[2] == s[..4][2] && s[3] == s[..4][3];
  }

  /** A number with one digit d in segment 3 at the top prints as "d B"
      and "d billion". */
  lemma BillionsForm(a: BigNumber, d: nat)
    requires TopIndex(a) == 3 && a.segments[3] == d && 1 <= d < 10
    ensures ToString(a, false) == [DigitChar(d)] + " B"
    ensures ToString(a) == [DigitChar(d)] + " billion"
  {
    UnitForm(a, false);
    UnitForm(a, true);
    assert UnitName(3, false) == "B" && UnitName(3, true) == "billion";
  }

  /** With top index 3, toStringE joins the top digits and the three
      padded segments below with commas. */
  lemma FourGroups(a: BigNumber, g3: string, g2: string, g1: string, g0: string)
    requires TopIndex(a) == 3
    requires Decimal(a.segments[3]) == g3 && Pad3(a.segments[2]) == g2
    requires Pad3(a.segments[1]) == g1 && Pad3(a.segments[0]) == g0
    ensures ToStringE(a) == g3 + "," + g2 + "," + g1 + "," + g0
  {
    GroupedFour(a);
  }

  /** The grouped text of a number whose top index is 3. */
  lemma GroupedFour(a: BigNumber)
    requires TopIndex(a) == 3
    ensures Grouped(a) == Decimal(a.segments[3]) + "," + Pad3(a.segments[2]) + ","
                          + Pad3(a.segments[1]) + "," + Pad3(a.segments[0])
  {
    var s := a.segments;
    EmitStep(s, 3, 3);
    EmitStep(s, 3, 2);
    EmitStep(s, 3, 1);
    EmitLast(s, 3);
    CommaChain(PieceDigits(s, 3, 3), PieceDigits(s, 3, 2), PieceDigits(s, 3, 1),
               PieceDigits(s, 3, 0), Emit(s, 3, 0), Emit(s, 3, 1), Emit(s, 3, 2), Emit(s, 3, 3));
  }

  /** Four pieces written one after another, each followed by a comma but the last. */
  lemma CommaChain(d3: string, p2: string, p1: string, p0: string,
                   e0: string, e1: string, e2: string, e3: string)
    requires e0 == p0 && e1 == p1 + "," + e0 && e2 == p2 + "," + e1 && e3 == d3 + "," + e2
    ensures e3 == d3 + "," + p2 + "," + p1 + "," + p0
  {
  }

  /** "%03.0lf" of a three-digit value is its three digits. */
  lemma Pad3Digits(n: nat)
    requires 100 <= n < 1000
    ensures Pad3(n) == [DigitChar(n / 100), DigitChar(n / 10 % 10), DigitChar(n % 10)]
  {
    Pad3Exact(n);
    ThreeDigits(n);
  }

  /** 50 is padded to "050". */
  lemma PadFifty()
    ensures Pad3(50) == "050"
  {
    DecimalStep(50);
    assert Decimal(50) == "50";
  }

  // ---------------------------------------------------------------- 1, 999 and 1000

  /** 1000 has segments 0, 1 and zeros above. */
  lemma ThousandSegments(a: BigNumber)
    requires Val(a) == 1000
    ensures a.segments[0] == 0 && a.segments[1] == 1
    ensures forall j :: 2 <= j < SegmentCount ==> a.segments[j] == 0
  {
    assert Value([0, 1]) == 1000;
    ByValue(a, [0, 1]);
    var s := a.segments;
    assert s[..2] == [0, 1];
    assert s[0] == s[..2][0] && s[1] == s[..2][1];
  }

  /** 999 has segment 0 equal to 999 and zeros above. */
  lemma NinesSegments(a: BigNumber)
    requires Val(a) == 999
    ensures a.segments[0] == 999
    ensures forall j :: 1 <= j < SegmentCount ==> a.segments[j] == 0
  {
    assert Value([999]) == 999;
    ByValue(a, [999]);
    assert a.segments[0] == a.segments[..1][0];
  }

  /** 1 + 999 carries into segment 1: it is 1000. */
  lemma OnePlusNineNineNine(one: BigNumber, nines: BigNumber)
    requires Val(one) == 1 && Val(nines) == 999
    ensures Val(Add(one, nines)) == 1000
    ensures Add(one, nines).segments[0] == 0 && Add(one, nines).segments[1] == 1
  {
    ThousandSegments(Add(one, nines));
  }

  // ---------------------------------------------------------------- five billion

  /** BigNumber(1000) * 5000000 is five billion, segment 3 holds 5, and
      it prints as "5 B". */
  lemma ThousandTimesFiveMillion(a: BigNumber)
    requires Val(a) == 1000
    ensures Val(Scale(a, 5000000)) == 5000000000
    ensures Scale(a, 5000000).segments[3] == 5
    ensures ToString(Scale(a, 5000000), false) == "5 B"
  {
    FiveBillionForm(Scale(a, 5000000));
  }

  lemma FiveBillionForm(a: BigNumber)
    requires Val(a) == 5000000000
    ensures a.segments[3] == 5
    ensures ToString(a, false) == "5 B"
  {
    FiveBillionSegments(a);
    UnitForm(a, false);
    DecimalLiterals();
    assert UnitName(3, false) == "B";
  }

  /** Five billion has 5 in segment 3 and top index 3. */
  lemma FiveBillionSegments(a: BigNumber)
    requires Val(a) == 5000000000
    ensures a.segments[3] == 5 && TopIndex(a) == 3
  {
    assert Value([0, 0, 0, 5]) == 5000000000;
    ByValue(a, [0, 0, 0, 5]);
    var s := a.segments;
    assert s[..4] == [0, 0, 0, 5];
    assert s[3] == s[..4][3];
  }
}
